=== FILE: README.md ===
# KeyFinder in Dafny

KeyFinder has two parts. A Flask server (`KeyFinder-Server/server.py`) takes a short audio clip and reports:

- its musical key, with a confidence, up to three alternative keys and the relative key;
- its tempo;
- the chord progressions that suit the key;
- the song, when the recognition service can identify it.

The same server answers searches for curated songs in a given key. A React Native app (`KeyFinder-App`) shows the result. It has:

- an on-screen keyboard with the notes of the key's scale;
- a circle-of-fifths key wheel;
- suggestions of artists who write in the key;
- a Dropbox file browser and folder picker, used to send files to the server for analysis.

This project models the decision logic of both parts as pure Dafny functions over immutable datatypes, and proves what that logic promises:

- the key ranking, the confidence formula, the alternatives and the relative key;
- the tempo folding and the rounding;
- the shape of the analysis response, with its error paths;
- the reduction of the song-recognition reply to a song record;
- the curated song search;
- the scale shown on the keyboard;
- the layout of the key wheel;
- the artist suggestions;
- the navigation of the two Dropbox browsers, and the per-file analysis state of the file browser.

Signal processing is not modelled. The chroma correlations, the raw tempo estimate, the length and peak of the clip, the recognition reply and the Dropbox listings are all inputs. Failures are `Err`/`None` values. A failing Dropbox request is a `Listing` that answers `None`.

Modules, one per file:

- `Common`: `Option`, `Result`, `IndexOf` and an order-keeping `Filter`.
- `Strings`: the JavaScript and Python string primitives the code relies on.
- `Sorting`: a stable insertion sort, its permutation, order and stability lemmas, and a lemma about sorted prefixes.
- `Music`: pitch classes, keys, key names, scales and relative keys.
- `Rounding`, `Tempo`, `KeyDetection`, `Chords`, `Recognition`, `Analysis`, `SongSearch`: the server.
- `Scales`, `KeyWheel`, `Artists`, `FolderNav`, `FolderPicker`, `DropboxBrowser`: the app.

## Model

| member | source | states |
|---|---|---|
| Music.RelativeKey | KeyFinder-Server/server.py:377-384 | The relative key has the other mode and exactly the same seven pitch classes in its scale |
| Music.RelativeKeyUnique | KeyFinder-Server/server.py:377-384 | Any key of the other mode with the same scale is the relative key, so the table cannot pick a different partner |
| Music.RelativeKeyInvolution | KeyFinder-Server/server.py:377-384 | Taking the relative key twice gives back the original key |
| Music.SameScaleSameRoot | KeyFinder-Server/server.py:377-384 | Two keys of the same mode with the same scale have the same root |
| Music.RotationBreaks | KeyFinder-Server/server.py:377-384 | For different roots of one mode, some pitch class is in the first scale and not in the second |
| Music.RelativeSharesScale | KeyFinder-Server/server.py:379-384 | A major key and the minor key nine semitones up, or a minor key and the major key three up, share their scale |
| Music.MinorThirdBelow | KeyFinder-Server/server.py:379-381 | Degrees of a major scale, measured from the minor root nine semitones up, are exactly the natural-minor degrees |
| Music.MajorDegreesAsMinor | KeyFinder-Server/server.py:379-381 | Shifting the major intervals by a minor third gives exactly the minor intervals |
| Music.KeyNameParts | KeyFinder-Server/server.py:375 | A key name `"<note> <mode>"` splits at the blank into its note name and its mode name |
| Music.KeyNameInjective | KeyFinder-Server/server.py:375 | Different keys have different names |
| Music.NoteNamesDistinct | KeyFinder-Server/server.py:66 | The twelve note names are pairwise different and contain no blank |
| Rounding.RoundHalfEven | KeyFinder-Server/server.py:304 | The result is within 0.5 of the argument, and on an exact half it is even |
| Rounding.RoundHalfEvenNearest | KeyFinder-Server/server.py:304 | No integer is closer to the argument; any other integer at the same distance is odd and sits on a half |
| Rounding.RoundTenths | KeyFinder-Server/server.py:423 | `round(x, 1)` gives a whole number of tenths within 0.05 of the argument; on an exact half-tenth the last digit is even |
| Rounding.RoundHalfEvenIsNearest | KeyFinder-Server/server.py:304 | No integer is closer to the argument than the rounded value |
| Rounding.RoundTenthsWithin | KeyFinder-Server/server.py:423 | Rounding to tenths keeps a value inside any interval whose bounds are whole tenths, such as 50..100 |
| Tempo.FoldTempo | KeyFinder-Server/server.py:299-302 | Above 200 the tempo is halved, below 60 it is doubled, and in between it is unchanged |
| Tempo.FoldTempoBand | KeyFinder-Server/server.py:299-302 | Every raw tempo from 30 to 400 lands in 60..200; above 400 it stays above 200; below 30 it stays below 60 |
| Tempo.DetectTempo | KeyFinder-Server/server.py:289-307 | A failed estimate gives the default 120. Otherwise the result is an integer nearest to the folded tempo, and the even one on an exact half; it lies within 60..200 for a raw tempo in 30..400 |
| KeyDetection.Candidates | KeyFinder-Server/server.py:348-362 | There are 24 candidates, one per key, in generation order: for each root, major then minor; each is scored with its correlation, and NaN counts as 0 |
| KeyDetection.Ranked | KeyFinder-Server/server.py:364-365 | A permutation of the candidates with non-increasing scores; tied scores keep generation order, as the stable descending sort does |
| KeyDetection.PermutationKeepsScores | KeyFinder-Server/server.py:364-365 | Reordering the candidates keeps each key's own score attached to it |
| KeyDetection.RankedHasEveryKey | KeyFinder-Server/server.py:364-365 | Every key occurs in the ranking, with its own score |
| KeyDetection.Confidence | KeyFinder-Server/server.py:367-370 | Confidence lies in 0..100. It is `50 + 100·gap` for a gap of the scores clamped at 0 within ±0.5, 100 exactly when the gap is at least 0.5, and 0 when it is at most -0.5. It is at least 50 when the top score is not below the second, and equal clamped scores give 50 |
| KeyDetection.ConfidenceMonotone | KeyFinder-Server/server.py:367-370 | A larger gap between the clamped top two scores never gives a lower confidence |
| KeyDetection.Alternatives | KeyFinder-Server/server.py:373 | At most three alternatives: exactly the candidates ranked second to fourth whose score exceeds 0.1, in ranking order, and without repeats when the ranking has distinct keys |
| KeyDetection.FilterDistinctKeys | KeyFinder-Server/server.py:373 | Filtering candidates with distinct keys leaves candidates with distinct keys |
| KeyDetection.KeysKeepOrder | KeyFinder-Server/server.py:373 | Taking the keys of candidates kept in ranking order keeps that order |
| KeyDetection.TopIsBest | KeyFinder-Server/server.py:372 | The top-ranked key has the highest score of all 24 keys, and among keys with that score it comes first in generation order |
| KeyDetection.AlternativesFacts | KeyFinder-Server/server.py:373 | The alternative keys never include the main key, all score above 0.1, come in non-increasing score order, and are exactly the keys ranked 2–4 that clear 0.1 |
| KeyDetection.AlternativesAvoidTop | KeyFinder-Server/server.py:373 | In a ranking of distinct keys, each alternative comes from ranks 2–4, is above the threshold and is not the top key |
| KeyDetection.AlternativesOrdered | KeyFinder-Server/server.py:373 | Filtering a ranking keeps its score order |
| KeyDetection.AlternativesExact | KeyFinder-Server/server.py:373 | Each key ranked 2–4 that scores above 0.1 is an alternative |
| KeyDetection.Estimate | KeyFinder-Server/server.py:348-386 | The chosen key maximises the score, with ties going to the earliest in generation order; it is the head of the ranking. The confidence is `Confidence` of the two highest ranked scores, so it lies in 50..100. The alternatives are as above, distinct and in ranking order. The relative key is the chosen key's relative key |
| KeyDetection.TiedTopGivesFifty | KeyFinder-Server/server.py:367-370 | When two different keys share the top score, the confidence is exactly 50 |
| KeyDetection.DetectKey | KeyFinder-Server/server.py:338-390 | A failed chroma computation gives the fallback; otherwise the answer is exactly `Estimate` of the correlations: a best-scoring key with confidence 50..100; the reported relative key always matches the key |
| KeyDetection.FallbackIsRelativePair | KeyFinder-Server/server.py:388-390 | The fallback's C Major and A Minor are each other's relative keys |
| Chords.ProgressionsCoverEveryKey | KeyFinder-Server/server.py:137-286 | Every one of the 24 key names has at least four progressions in the table |
| Analysis.ReportUsesProgressionTable | KeyFinder-Server/server.py:427 | Every report's key is in the progression table, and the report carries exactly that key's table entry, never the empty default |
| Recognition.IdentifySong | KeyFinder-Server/server.py:508-537 | An exception gives an error record carrying its message. A success needs status code 0 and at least one match, and then describes the first match: its title and release date, the album's name and cover art URL (null without an album), and the first Spotify entry's id (null without one); no artists give an empty artist string. Anything else is not found |
| Recognition.ArtistNames | KeyFinder-Server/server.py:526 | One name per artist, in order; a missing name is the empty string |
| Recognition.JoinCommaBlank | KeyFinder-Server/server.py:526 | Joining with `", "` equals joining with `","` after prefixing every name but the first with a blank |
| Recognition.ArtistListRecoverable | KeyFinder-Server/server.py:526 | When no artist name contains a comma, splitting the artist string at commas gives back the first name and each further name behind one blank |
| Analysis.KeyNames | KeyFinder-Server/server.py:373 | The alternative keys are rendered one name per key, in order |
| Analysis.StatusOf | KeyFinder-Server/server.py:432-443 | The status is `recognized` exactly when identification succeeded, and then carries the title, artist, album, release date, Spotify URL and cover art URL of the identified song |
| Analysis.AnalyzeAudio | KeyFinder-Server/server.py:392-453 | The response is either a report or a failure. A load failure is reported with the `Analysis failed: ` prefix. Under two seconds of harmonic signal gives the too-short error; a peak below 1e-5 gives the silence error. Otherwise it reports the detected key, its relative key, at least four progressions, at most three alternatives without the key, the detected key's confidence rounded to tenths (50..100, 0 for the fallback), the tempo of `detect_tempo`, the names of the detected alternatives, and the status built from the identification, `recognized` exactly when it succeeded |
| Analysis.Assemble | KeyFinder-Server/server.py:411-445 | A clip that passes the checks yields a report of the detected key, its rounded confidence, the detected tempo, the alternative key names, the relative key, the table's progressions for that key and the status from the identification |
| Analysis.ReportedConfidence | KeyFinder-Server/server.py:423 | The reported confidence, rounded to one decimal, still lies in 50..100 |
| Analysis.AlternativeNamesAvoidKey | KeyFinder-Server/server.py:373-375 | The name of the main key is not among the alternative names |
| Analysis.ReportRelativeIsRelative | KeyFinder-Server/server.py:422-426 | Whatever key a report names, its relative key field names that key's relative key |
| Analysis.FailedKeyDetectionReportsFallback | KeyFinder-Server/server.py:388-390 | When chroma analysis fails, the report says C Major with relative A Minor, confidence 0 and no alternatives |
| Analysis.RecognitionOnlyAffectsStatus | KeyFinder-Server/server.py:419-443 | The recognition reply cannot change whether the clip is accepted, nor any musical field of the report; only the status and song fields depend on it |
| SongSearch.Matching | KeyFinder-Server/server.py:567-569 | A song is kept exactly when it is listed for the key and, unless the genre is empty or `all` in any case, its genre contains the requested genre ignoring case |
| SongSearch.MorePopularIsStrictWeakOrder | KeyFinder-Server/server.py:572 | Ordering by descending popularity is a strict weak order, so the stable sort is well defined |
| SongSearch.PyTake | KeyFinder-Server/server.py:579 | Python slicing `songs[:limit]`: a prefix of length `limit` when 0 ≤ limit ≤ length; the whole list when the limit is larger; with a negative limit the list without its last `-limit` songs, or empty |
| SongSearch.SongsByKeyAndGenre | KeyFinder-Server/server.py:562-583 | The result is the first part of the matching songs after the stable sort by descending popularity, so each is listed for that key, matches the genre, and appears no more often than among the matches. There are `min(limit, matches)` songs for a non-negative limit and all `matches + limit` (or none) for a negative one; every matching song when the limit allows |
| SongSearch.CutSongsAreNoMorePopular | KeyFinder-Server/server.py:571-579 | Only the most popular matches are kept: a matching song that the limit cut off is no more popular than any song returned |
| SongSearch.PrefixSubMultiset | KeyFinder-Server/server.py:579 | The slice `songs[:limit]` holds no song more often than the whole list |
| SongSearch.SortedByPopularity | KeyFinder-Server/server.py:572 | The sorted list is in non-increasing popularity and holds only songs of the input |
| SongSearch.InPlaceSortInvisible | KeyFinder-Server/server.py:568-572 | The unfiltered search sorts the curated list in place; a later search with any key, genre and limit gives the same answer as before |
| SongSearch.AfterSearch | KeyFinder-Server/server.py:565-572 | The in-place sort touches only the searched key's list, which keeps the same songs; without a genre filter that list ends up in non-increasing popularity, with one it is left as it was; every other list and the set of keys are unchanged |
| SongSearch.CuratedListsShort | KeyFinder-Server/server.py:71-100 | No key has more than four curated songs |
| SongSearch.EffectiveLimit | KeyFinder-Server/server.py:661 | `min(limit, 50)`: an absent limit is 20; a JSON `null` makes `min` raise; a whole limit up to 50 is used as given and a larger one, whole or fractional, becomes 50; a fractional limit up to 50 stays that fraction |
| SongSearch.Search | KeyFinder-Server/server.py:655-674 | The search handler over a song table (the server passes its curated table). A `null` limit is a server error, even without a key. Otherwise a missing, `null` or empty key is rejected with `Key is required`. A result echoes the key and the genre (`all` when absent, `null` when sent as `null`) with `total` equal to the number of songs. The songs are listed for that key, match an active genre filter, hold no song more often than the matches do, and come in non-increasing popularity; there are `min(limit, 50, matches)` of them for a non-negative whole limit, and none for a fractional limit up to 50 |
| SongSearch.SearchUsesCappedLimit | KeyFinder-Server/server.py:661-666 | The songs of a result are exactly those of `SongsByKeyAndGenre` with the capped limit: 20 without a limit, `min(limit, 50)` for a whole limit, 50 for a fractional limit above 50 |
| SongSearch.SearchTopTwoOfFour | KeyFinder-Server/server.py:656-674 | On a key with four songs of distinct popularity, a search limited to two answers with the two most popular, most popular first, and no song twice |
| SongSearch.SearchTopTwoInAMinor | KeyFinder-Server/server.py:656-674 | Searching the curated table for `A Minor` with limit 2 answers `God's Plan` then `Sicko Mode` |
| SongSearch.TopTwoOfFour | KeyFinder-Server/server.py:562-579 | With genre `all` and limit 2, four songs of distinct popularity give the two most popular, most popular first |
| SongSearch.TopTwoInAMinor | KeyFinder-Server/server.py:562-579 | The curated `A Minor` songs limited to two are `God's Plan` then `Sicko Mode` |
| SongSearch.SortFourSongs | KeyFinder-Server/server.py:572 | Sorting by descending popularity puts the most popular of four songs first and keeps the rest in order when they already descend |
| SongSearch.AMinorCurated | KeyFinder-Server/server.py:72-77 | The curated `A Minor` list holds Sicko Mode, God's Plan, HUMBLE. and Bad Guy, in that order and with their popularities |
| SongSearch.GenreText | KeyFinder-Server/server.py:568 | A `null` genre switches the genre filter off, as an empty one does; a given genre is used as sent |
| SongSearch.DefaultLimitReturnsEveryMatch | KeyFinder-Server/server.py:656-674 | Without a `limit`, a search with a key returns every curated song of that key that matches the genre |
| Scales.ScaleNotes | KeyFinder-App/App.js:46-52 | An unknown root gives no notes; otherwise seven distinct note names starting with the root |
| Scales.NotesFrom | KeyFinder-App/App.js:50-51 | Seven distinct note names, the i-th being the root raised by the mode's i-th interval |
| Scales.ModeWord | KeyFinder-App/App.js:50 | The major scale is used exactly when the second word is `Major` |
| Scales.ScaleNotesMatchScale | KeyFinder-App/App.js:46-52 | For every key name, a note is lit exactly when its pitch class is in that key's scale |
| Scales.ScaleNotesOfKeyName | KeyFinder-App/App.js:47-51 | A key's own name parses back to its root and mode |
| Scales.NotesFromMatchScale | KeyFinder-App/App.js:51 | A note name is listed exactly when its pitch class is in the scale |
| Scales.RelativeKeySameNotes | KeyFinder-App/App.js:46-52 | A key and its relative key light up the same notes |
| Scales.OtherModeWordIsMinor | KeyFinder-App/App.js:50 | Any second word other than `Major`, such as `minor`, gives the natural-minor scale |
| Scales.NonNoteRootGivesNothing | KeyFinder-App/App.js:48-49 | A first word that is not a sharp-spelled note name, such as `Bb`, lights up nothing |
| KeyWheel.HandleKeyPress | KeyFinder-App/KeyWheel.js:50-53 | The chosen string splits back into the pressed note name and the mode name |
| KeyWheel.RingLayout | KeyFinder-App/KeyWheel.js:14-42 | Each ring has twelve slots 30 degrees apart. Slot i of the major ring is the i-th step around the circle of fifths from C; slot i of the minor ring is its relative minor. The pressed name is that key's name |
| KeyWheel.MajorLayout | KeyFinder-App/KeyWheel.js:14-27 | The major ring lists the roots in fifths from C, at 30-degree steps |
| KeyWheel.MinorLayout | KeyFinder-App/KeyWheel.js:29-42 | The minor ring lists, at each angle, the relative minor of the major key at that angle |
| KeyWheel.RingFollowsFifths | KeyFinder-App/KeyWheel.js:14-27 | Consecutive slots, wrapping around, are a perfect fifth apart |
| KeyWheel.RingIndexInverts | KeyFinder-App/KeyWheel.js:14-27 | Every pitch class occupies exactly one slot of the ring |
| KeyWheel.WheelCoversEveryKey | KeyFinder-App/KeyWheel.js:14-53 | Each of the 24 keys has a slot on the wheel, and pressing it selects exactly that key's name |
| KeyWheel.WheelKeyAtInjective | KeyFinder-App/KeyWheel.js:14-42 | Different slots, on the same or different rings, stand for different keys |
| KeyWheel.PressSelectsExactlyThatKey | KeyFinder-App/KeyWheel.js:50-65 | After pressing a slot, a slot is highlighted exactly when it is the pressed one |
| Artists.SongsInKey | KeyFinder-App/App.js:533 | A song is listed exactly when it is one of the artist's top songs in the key, in the original order |
| Artists.MatchFor | KeyFinder-App/App.js:529-534 | The rank is the 1-based first position of the key in the artist's list. `bpmMatch` holds exactly when the tempo is within the artist's range. The distance is the absolute difference from the average. Confidence is 95/85 inside the range and 75/65 outside, the higher value for a rank-1 key |
| Artists.Candidates | KeyFinder-App/App.js:527-536 | Every artist that uses the key gets a match, every match comes from such an artist with a confidence that agrees with its tempo match and key rank, and there are at most as many matches as artists |
| Artists.CandidatesFollowTable | KeyFinder-App/App.js:527-536 | One match per artist that uses the key, in table order: the i-th match is the one for the i-th such artist, so artists that tie in the comparator (Drake and Travis Scott for A Minor at 130 BPM) reach the stable sort in table order |
| Artists.FollowsArtistsCons | KeyFinder-App/App.js:527-536 | Putting an artist that uses the key in front of the list puts its match in front of the matches |
| Artists.ComesBeforeIsStrictWeakOrder | KeyFinder-App/App.js:537-540 | The comparator (tempo match first, then key rank, then tempo distance) is a strict weak order, so the sort is well defined |
| Artists.ConfidenceFollowsOrder | KeyFinder-App/App.js:534-540 | A match the comparator does not rank below another has at least its confidence |
| Artists.ArtistsForKey | KeyFinder-App/App.js:525-542 | The first `min(matches, 5)` matches of the stable sort, in comparator order with non-increasing confidence; all matches when there are at most five |
| Artists.LeftOutAreNoBetter | KeyFinder-App/App.js:537-541 | A match cut off by the limit of five does not come before any suggestion that was kept |
| Artists.UnusedKeyGivesNone | KeyFinder-App/App.js:527-542 | A key that no artist uses gives no suggestions |
| Artists.BuiltInRanksAtMostFour | KeyFinder-App/App.js:526 | With the built-in table, every suggestion's key rank is between 1 and 4 |
| FolderNav.BrowsableEntries | KeyFinder-App/App.js:121-125 | An entry is shown exactly when it is a folder or its name ends, ignoring case, in `.wav`, `.mp3`, `.aiff` or `.m4a`; shown entries keep their listing order |
| FolderNav.FetchItems | KeyFinder-App/App.js:108-131 | Without an access token the items stay; a failed request leaves the old items; otherwise the items become exactly the browsable entries of the listing, in listing order |
| FolderNav.RequestPath | KeyFinder-App/App.js:118 | The root `/` is requested as the empty path; any other path as given |
| FolderNav.AudioNameIgnoresCase | KeyFinder-App/App.js:124 | A name and its lower-case form are both audio or both not |
| FolderNav.GoUp | KeyFinder-App/App.js:173-177 | The root stays the root; any other path moves to a strictly shorter prefix of itself, the root when it has no `/` |
| FolderNav.GoUpFromChild | KeyFinder-App/App.js:173-177 | Going up from `parent/name` returns to `parent` |
| FolderPicker.LoadFolder | KeyFinder-App/DropboxFolderPicker.js:51-57 | The picker shows the requested path and its listing, or nothing when the listing fails |
| FolderPicker.GoBack | KeyFinder-App/DropboxFolderPicker.js:59-64 | Nothing happens at the root; otherwise the picker moves to a strictly shorter prefix of the path and lists it |
| FolderPicker.GoBackAgreesWithGoUp | KeyFinder-App/DropboxFolderPicker.js:59-64 | The picker's back step goes where the in-app browser's `goUp` goes |
| FolderPicker.GoBackUndoesOpen | KeyFinder-App/DropboxFolderPicker.js:59-64 | Opening a sub-folder and going back restores the picker exactly |
| FolderPicker.PathLabel | KeyFinder-App/DropboxFolderPicker.js:117 | The title is never blank: the root, the empty path, shows as `/`; any other path shows as itself |
| FolderPicker.ShownFolders | KeyFinder-App/DropboxFolderPicker.js:124 | Exactly the folders of the listing are shown, in listing order |
| DropboxBrowser.OpenBrowser | KeyFinder-App/DropboxBrowser.js:181-200 | The browser opens on the chosen folder, with its listing, no analysis results and nothing playing |
| DropboxBrowser.LoadFolder | KeyFinder-App/DropboxBrowser.js:212-230 | Changing folder forgets every analysis result and stops playback, and shows the new folder's listing |
| DropboxBrowser.GoBackTarget | KeyFinder-App/DropboxBrowser.js:326-343 | From the chosen folder the browser goes to the Dropbox root. From anywhere else it goes to `goUp` of the path when that is at least as long as the chosen folder's path, and to the chosen folder when it is shorter |
| DropboxBrowser.GoBackClampsByLength | KeyFinder-App/DropboxBrowser.js:333-340 | The clamp compares lengths only: with `/music` chosen, going back from `/x/abcdef` lands in `/music`, not in its parent `/x` |
| DropboxBrowser.GoBack | KeyFinder-App/DropboxBrowser.js:326-343 | Going back moves to the back target (the root from the chosen folder, never above the chosen folder otherwise), lists it, forgets the analysis results and keeps the chosen folder |
| DropboxBrowser.ParentIsGoUp | KeyFinder-App/DropboxBrowser.js:334-335 | The parent computed here is the one `goUp` of the in-app browser computes |
| DropboxBrowser.GoBackStaysInSelection | KeyFinder-App/DropboxBrowser.js:334-339 | Inside the chosen folder, going back never leaves it |
| DropboxBrowser.GoBackWithoutSelectionIsGoUp | KeyFinder-App/DropboxBrowser.js:326-343 | Without a chosen folder, going back is exactly `goUp` |
| DropboxBrowser.GoBackUndoesOpen | KeyFinder-App/DropboxBrowser.js:334-339 | Opening a sub-folder at or below the chosen folder and going back returns to where it was opened |
| DropboxBrowser.GoBackCyclesThroughRoot | KeyFinder-App/DropboxBrowser.js:331-339 | From the chosen folder, back leads to the Dropbox root, and from the root back leads to the chosen folder again |
| DropboxBrowser.HeaderLabel | KeyFinder-App/DropboxBrowser.js:402-404 | At the chosen folder the header shows its name. A longer path shows everything past the chosen folder's length, whether or not it lies inside the chosen folder; a path no longer than that shows `/` |
| DropboxBrowser.HeaderGarbledOutsideSelection | KeyFinder-App/DropboxBrowser.js:403 | With `/music` chosen, going back to the root and opening `/photos` shows the header `s`, and `/videos` would show the same; the sibling `/music2` shows `2` |
| DropboxBrowser.IntendedHeaderLabel | KeyFinder-App/DropboxBrowser.js:403 | Corrected header: the chosen folder's name there; inside it, path component by path component, the non-empty path relative to it; the full path (or `/` for the root) outside it |
| DropboxBrowser.IntendedHeaderAgreesInside | KeyFinder-App/DropboxBrowser.js:403 | Inside the chosen folder (the folder itself, a path below it past a `/`, or anything when the root is chosen) the corrected header is the code's header |
| DropboxBrowser.IntendedHeaderDistinguishesOutside | KeyFinder-App/DropboxBrowser.js:403 | Outside the chosen folder, different folders get different corrected headers |
| DropboxBrowser.IntendedHeaderShowsSiblingInFull | KeyFinder-App/DropboxBrowser.js:403 | With `/music` chosen, `/music2` is outside it and its corrected header is `/music2` |
| DropboxBrowser.HeaderShowsRelativePath | KeyFinder-App/DropboxBrowser.js:403 | Below the chosen folder, the header shows the path relative to it |
| DropboxBrowser.HeaderWithoutSelectionIsPathLabel | KeyFinder-App/DropboxBrowser.js:403 | Without a chosen folder the header shows what the picker's title shows |
| DropboxBrowser.CacheUri | KeyFinder-App/DropboxBrowser.js:76 | The download target is the cache directory followed by the file name character for character, except that every blank becomes `-` |
| DropboxBrowser.CacheUriInjectiveWithoutBlanks | KeyFinder-App/DropboxBrowser.js:76 | Blank-free names get distinct cache files |
| DropboxBrowser.BlankAndDashShareCacheFile | KeyFinder-App/DropboxBrowser.js:76 | `a b` and `a-b` are downloaded to the same cache file |
| DropboxBrowser.StartAnalysis | KeyFinder-App/DropboxBrowser.js:303-306 | The file is marked as analysing with no key; every other file's entry is unchanged |
| DropboxBrowser.KeyFromReply | KeyFinder-App/DropboxBrowser.js:69-115 | No reply, or an error reply with a message, gives `N/A (Error)`. A report gives its key. An error reply with an empty message passes the `!result.error` test and so stores the missing key |
| DropboxBrowser.FinishAnalysis | KeyFinder-App/DropboxBrowser.js:311-323 | The file stops analysing and holds the key read from the reply; every other file's entry is unchanged |
| DropboxBrowser.AnalyzeFile | KeyFinder-App/DropboxBrowser.js:295-324 | Without a token nothing changes. Otherwise the file ends up not analysing and holding the key read from the reply. Every other file's entry and the rest of the state are untouched |
| DropboxBrowser.ButtonLabel | KeyFinder-App/DropboxBrowser.js:381-387 | A spinner exactly while analysing. `Key: <key>` once a non-empty key is stored. Otherwise `Analyze Key` |
| DropboxBrowser.FreshFolderInvitesAnalysis | KeyFinder-App/DropboxBrowser.js:222 | After loading a folder every file offers `Analyze Key` |
| DropboxBrowser.AnalysisInProgressShowsSpinner | KeyFinder-App/DropboxBrowser.js:303-306 | While the server works, the file shows a spinner |
| DropboxBrowser.AnalysisFailuresHaveMessages | KeyFinder-Server/server.py:404-408 | Every failure the server pipeline reports carries a non-empty message |
| DropboxBrowser.AnalyzedFileShowsOutcome | KeyFinder-App/DropboxBrowser.js:295-324 | With the server running the modelled pipeline, a report shows `Key: <key>` and every failure shows `Key: N/A (Error)`; other files keep their entries |
| Strings.LastIndexOf | KeyFinder-App/App.js:175 | The position of the last occurrence of the character, or -1 when there is none |
| Strings.Substring | KeyFinder-App/DropboxBrowser.js:335 | JavaScript `substring`: in-range bounds give that slice, and a negative end counts as 0 and swaps with the start, so `substring(0, -1)` is empty |
| Strings.SplitJoin | KeyFinder-Server/server.py:526 | Joining pieces that do not contain the separator and splitting again gives the pieces back |
| Strings.JoinSplit | KeyFinder-App/App.js:47 | Splitting at a character and joining with it gives back the original string |
| Strings.SplitPair | KeyFinder-App/App.js:47 | Two separator-free words joined by the separator split into exactly those two words |
| Sorting.SortStable | KeyFinder-Server/server.py:365 | The sort keeps the input order of elements the order does not separate, as Python's and JavaScript's sorts do |
| Sorting.Sort | KeyFinder-Server/server.py:365 | The sort's output is a permutation of its input |
| Sorting.SortSorted | KeyFinder-App/App.js:537-541 | For a strict weak order, no element of the output comes before an earlier one |
| Sorting.SortPrefix | KeyFinder-App/App.js:541 | A prefix of the sorted list is sorted, holds only input elements, and is a permutation of the input when it has full length |
| Sorting.LeftOutOfPrefix | KeyFinder-App/App.js:541 | No element outside a prefix of a sorted list comes before an element inside it |
| Common.FilterKeepsOrder | KeyFinder-App/DropboxFolderPicker.js:124 | Filtering keeps the relative order of the elements it keeps |

## Findings

| source | as written | input that shows it | evidently intended | confidence | as-written member | corrected member |
|---|---|---|---|---|---|---|
| KeyFinder-App/DropboxBrowser.js:403 | The header drops as many leading characters as the chosen folder's path has, even for a path outside the chosen folder | Choose `/music`, go back to the root, open `/photos`: the header reads `s`, as it would for `/videos`; the sibling `/music2` reads `2` | Show the path relative to the chosen folder only inside it, judged by whole path components, and the full path elsewhere | medium, not executed | DropboxBrowser.HeaderGarbledOutsideSelection | DropboxBrowser.IntendedHeaderLabel |

## Left out

- Signal processing is not modelled: loading, trimming, harmonic/percussive separation, chroma and correlations, and librosa's tempo estimator. Their results are inputs of the model, and any exception they raise is an `Err`.
- Floating point is not modelled. Scores, tempos and confidences are exact reals. `np.round` and `round(x, 1)` are round-half-even on exact values, so binary representation effects are not modelled.
- Lower-casing is ASCII only. Python's `lower` and JavaScript's `toLowerCase` also fold non-ASCII letters.
- DropboxBrowser.GoBackTarget: lengths are counted in characters (Unicode scalar values), while `.length` at DropboxBrowser.js:335-337 counts UTF-16 code units. The two differ for a chosen folder whose name holds a character outside the Basic Multilingual Plane, and then only outside the chosen folder, after going back to the root. With `/🎵🎵` chosen (5 code units, 3 characters), going back from `/abc/x` gives `/🎵🎵` in the source, because 4 < 5, but `/abc` in the model.
- DropboxBrowser.HeaderLabel: `substring(initialPath.length)` at DropboxBrowser.js:403 drops UTF-16 code units, while the model drops characters. With `/🎵🎵` chosen, the source shows `ef` for `/abcdef` and the model shows `cdef`. Inside the chosen folder both give the same header.
- Recognition.IdentifySong: an absent field of the recognition reply is `None` in the model, which is also how the source treats it; a field present as JSON `null` is not modelled. A `null` `status`, `metadata`, `album`, `artists`, artist `name`, `external_metadata`, `spotify` list or `external_ids` makes server.py:516-529 raise (a `.get` or iteration on `None`, or joining a `None` name), and the source answers with an error record that the model cannot produce from a `null`. A field of the wrong JSON type is not modelled either.
- Firebase is not modelled: saving analyses (server.py:445-447) and the supplement of search results (server.py:574-577). The model behaves as if no database were configured.
- Network and file I/O are not modelled:
  - the recognition service call and file read (server.py:510-515);
  - the Dropbox HTTP calls, the temporary link, the download and the cache clean-up (DropboxBrowser.js:45-115);
  - Flask request parsing.

  They become parameters: a `Result` reply, a `Listing` function, an `Option` server reply.
- `analysis_timestamp` (server.py:428) is not modelled: it reads the clock.
- `/analyze` request validation (a missing or empty file field) and the `/get_chord_progressions` route (server.py:696-711) are not modelled. The first is HTTP plumbing around `AnalyzeAudio`; the second is a lookup of the same table as `Chords.ProgressionsFor`.
- The HTTP status codes are not modelled as numbers. Analysis failures travel as an `{"error": …}` body, which is what `AnalysisResponse.Failed` stands for; a search answers 400 as `SearchError` and an uncaught exception (a 500 from Flask) as `ServerFault`.
- server.py:308-336 and 454-506 are not modelled: they are unreachable code after a `return` and helpers outside this model.
- Rendering is not modelled: styling, animation, the geometry of the key wheel, audio playback (`playAudio`, `handleFilePlay`, the now-playing bar) and the loading and disabled flags. React state updates are treated as taking effect at once and in order. Only the `playing` field records that a folder change stops playback.
- Artists.ArtistsForKey: tempos are integers, as the server's `bpm` is; a fractional detected tempo is not modelled.
- SongSearch.EffectiveLimit: a string or boolean `limit`, and a key or genre that is not a string, are not modelled. A string makes `min` raise; a boolean counts as 0 or 1; a non-string genre makes `.lower()` raise inside the search's `try`, which answers with no songs. `null` and fractional limits are modelled.
- Recognition.IdentifySong: the artist string's exact contents are stated through `Recognition.ArtistListRecoverable` only for comma-free names.
- `search_artist`, the artist profiles of the server (server.py:102-135), `fetch_songs.py` and the app's other screens are not part of this model.

### Behaviour of the source worth knowing

- An exception in key detection yields the fixed answer C Major, confidence 0, no alternatives, relative key A Minor (server.py:388-390). No key is reported as undetermined.
- A silent or too short clip is rejected with an error message (server.py:404-408), not answered with a low confidence.
- Ties between scores are broken by the stable sort, in generation order: for each root, major before minor, roots from C upwards (server.py:348-365). There is no tolerance for near-equal scores.
- The confidence is `(best − second) · 100 + 50`, clamped to 0..100, with both scores first clamped at 0 (server.py:368-370). Only the two best scores count.
- Tempo is folded once into 60..200: halved above 200, doubled below 60 (server.py:299-302).
- The curated song list is sorted in place when no genre filter applies (server.py:572). `SongSearch.InPlaceSortInvisible` shows that this cannot change any later answer.

=== FILE: analysis.dfy ===
/** The analysis pipeline of `analyze_audio_locally`
    (KeyFinder-Server/server.py:392-452): validity checks on the loaded clip,
    then key, tempo, chord suggestions and song identification assembled
    into one response. The signal processing itself (loading, trimming,
    harmonic/percussive separation) is summarised by the quantities the
    code inspects. */
module Analysis {
  import opened Common
  import opened Music
  import opened Rounding
  import opened KeyDetection
  import opened Tempo
  import opened Chords
  import opened Recognition

  /** `librosa.load(..., sr=22050)`. */
  const SampleRate: nat := 22050

  /** A clip must keep at least two seconds of harmonic signal. */
  const MinHarmonicSamples: nat := SampleRate * 2

  /** The loudest absolute sample value below which a clip is silent. */
  const SilenceThreshold: real := 0.00001

  const TooShortMessage: string := "Audio clip too short or lacks harmonic content"
  const SilentMessage: string := "Audio appears to be silent or too quiet"
  const FailurePrefix: string := "Analysis failed: "

  /** What the code reads of a loaded, trimmed clip: the length of its
      harmonic part, its peak amplitude, the raw tempo estimate and the key
      correlations (each of the last two may raise). */
  datatype Clip = Clip(
    harmonicLength: nat,
    peak: real,
    rawTempo: Result<real>,
    correlations: Result<Key -> Correlation>)

  /** `status` of the response with the fields merged in from a recognised
      song. */
  datatype Status =
    | Recognized(
        title: Option<string>,
        artist: string,
        album: Option<string>,
        releaseDate: Option<string>,
        spotifyUrl: Option<string>,
        coverArtUrl: Option<string>)
    | NotRecognized

  datatype AnalysisResponse =
    | Failed(error: string)
    | Report(
        key: string,
        keyConfidence: real,
        bpm: int,
        alternativeKeys: seq<string>,
        relativeKey: string,
        chordProgressions: seq<string>,
        status: Status)

  function KeyNames(ks: seq<Key>): (names: seq<string>)
    ensures |names| == |ks|
    ensures forall i :: 0 <= i < |ks| ==> names[i] == KeyName(ks[i])
  {
    seq(|ks|, i requires 0 <= i < |ks| => KeyName(ks[i]))
  }

  /** `status` is `recognized` exactly for a successful identification, and
      then carries the song's fields unchanged. */
  function StatusOf(song: SongInfo): (s: Status)
    ensures s.Recognized? <==> song.Success?
    ensures s.Recognized? ==> s.title == song.title && s.artist == song.artist && s.album == song.album
    ensures s.Recognized? ==> s.releaseDate == song.releaseDate && s.spotifyUrl == song.spotifyUrl && s.coverArtUrl == song.coverArtUrl
  {
    match song
    case Success(title, artist, album, released, spotify, cover) =>
      Recognized(title, artist, album, released, spotify, cover)
    case _ => NotRecognized
  }

  /** The report for a clip that passed the checks. */
  function Assemble(clip: Clip, lookup: Result<AcrReply>): (resp: AnalysisResponse)
    ensures resp.Report?
    ensures resp.key == KeyName(DetectKey(clip.correlations).key)
    ensures resp.keyConfidence == RoundTenths(DetectKey(clip.correlations).confidence)
    ensures resp.bpm == DetectTempo(clip.rawTempo)
    ensures resp.alternativeKeys == KeyNames(DetectKey(clip.correlations).alternatives)
    ensures resp.relativeKey == KeyName(RelativeKey(DetectKey(clip.correlations).key))
    ensures resp.key in ChordProgressions && resp.chordProgressions == ChordProgressions[resp.key]
    ensures resp.status == StatusOf(IdentifySong(lookup))
  {
    ProgressionsCoverEveryKey(DetectKey(clip.correlations).key);
    var e := DetectKey(clip.correlations);
    var name := KeyName(e.key);
    Report(
      name,
      RoundTenths(e.confidence),
      DetectTempo(clip.rawTempo),
      KeyNames(e.alternatives),
      KeyName(e.relative),
      ProgressionsFor(name),
      StatusOf(IdentifySong(lookup)))
  }

  /** `analyze_audio_locally`: `clip` is `Err` when loading or separating
      the signal raised; `lookup` is the recognition reply for the same
      file. */
  function AnalyzeAudio(clip: Result<Clip>, lookup: Result<AcrReply>): (resp: AnalysisResponse)
    ensures clip.Err? ==> resp == Failed(FailurePrefix + clip.message)
    ensures clip.Ok? && clip.value.harmonicLength < MinHarmonicSamples ==> resp == Failed(TooShortMessage)
    ensures clip.Ok? && clip.value.harmonicLength >= MinHarmonicSamples && clip.value.peak < SilenceThreshold ==> resp == Failed(SilentMessage)
    ensures resp.Report? <==> clip.Ok? && clip.value.harmonicLength >= MinHarmonicSamples && clip.value.peak >= SilenceThreshold
    ensures resp.Report? ==> resp.key == KeyName(DetectKey(clip.value.correlations).key)
    ensures resp.Report? ==> resp.relativeKey == KeyName(RelativeKey(DetectKey(clip.value.correlations).key))
    ensures resp.Report? ==> resp.bpm == DetectTempo(clip.value.rawTempo)
    ensures resp.Report? ==> resp.alternativeKeys == KeyNames(DetectKey(clip.value.correlations).alternatives)
    ensures resp.Report? ==> resp.keyConfidence == RoundTenths(DetectKey(clip.value.correlations).confidence)
    ensures resp.Report? ==> resp.status == StatusOf(IdentifySong(lookup))
    ensures resp.Report? ==> |resp.chordProgressions| >= 4
    ensures resp.Report? ==> |resp.alternativeKeys| <= 3 && resp.key !in resp.alternativeKeys
    ensures resp.Report? && clip.value.correlations.Ok? ==> 50.0 <= resp.keyConfidence <= 100.0
    ensures resp.Report? && clip.value.correlations.Err? ==> resp.keyConfidence == 0.0
    ensures resp.Report? ==> (resp.status.Recognized? <==> IdentifySong(lookup).Success?)
  {
    match clip
    case Err(e) => Failed(FailurePrefix + e)
    case Ok(c) =>
      if c.harmonicLength < MinHarmonicSamples then Failed(TooShortMessage)
      else if c.peak < SilenceThreshold then Failed(SilentMessage)
      else
        var e := DetectKey(c.correlations);
        ProgressionsCoverEveryKey(e.key);
        AlternativeNamesAvoidKey(e);
        ReportedConfidence(c.correlations);
        Assemble(c, lookup)
  }

  /** A report's chord suggestions are the table's own entry for the
      reported key: the key always has one, so the `[]` default of the
      lookup is never used. */
  lemma ReportUsesProgressionTable(clip: Result<Clip>, lookup: Result<AcrReply>)
    requires AnalyzeAudio(clip, lookup).Report?
    ensures AnalyzeAudio(clip, lookup).key in ChordProgressions
    ensures AnalyzeAudio(clip, lookup).chordProgressions == ChordProgressions[AnalyzeAudio(clip, lookup).key]
  {
    ProgressionsCoverEveryKey(DetectKey(clip.value.correlations).key);
  }

  /** The rounded confidence stays in 50..100 for a computed key. */
  lemma ReportedConfidence(corr: Result<Key -> Correlation>)
    ensures corr.Ok? ==> 50.0 <= RoundTenths(DetectKey(corr).confidence) <= 100.0
  {
    if corr.Ok? {
      RoundTenthsWithin(DetectKey(corr).confidence, 500, 1000);
    }
  }

  /** The key is never listed among its own alternatives, by name either. */
  lemma AlternativeNamesAvoidKey(e: KeyEstimate)
    requires e.key !in e.alternatives
    ensures KeyName(e.key) !in KeyNames(e.alternatives)
  {
    var names := KeyNames(e.alternatives);
    forall i | 0 <= i < |names|
      ensures names[i] != KeyName(e.key)
    {
      var a := e.alternatives[i];
      assert a in e.alternatives;
      if KeyName(a) == KeyName(e.key) {
        KeyNameInjective(a, e.key);
      }
    }
  }

  /** The relative key in a report is the relative of the reported key, read
      back through the key names. */
  lemma ReportRelativeIsRelative(clip: Result<Clip>, lookup: Result<AcrReply>, k: Key)
    requires AnalyzeAudio(clip, lookup).Report?
    requires AnalyzeAudio(clip, lookup).key == KeyName(k)
    ensures AnalyzeAudio(clip, lookup).relativeKey == KeyName(RelativeKey(k))
  {
    KeyNameInjective(k, DetectKey(clip.value.correlations).key);
  }

  /** When the key correlations raise, the report carries the fallback
      C major / A minor pair with confidence 0 and no alternatives. */
  lemma FailedKeyDetectionReportsFallback(clip: Result<Clip>, lookup: Result<AcrReply>)
    requires AnalyzeAudio(clip, lookup).Report?
    requires clip.value.correlations.Err?
    ensures AnalyzeAudio(clip, lookup).key == "C Major"
    ensures AnalyzeAudio(clip, lookup).relativeKey == "A Minor"
    ensures AnalyzeAudio(clip, lookup).keyConfidence == 0.0
    ensures AnalyzeAudio(clip, lookup).alternativeKeys == []
  {
  }

  /** The musical part of the response does not depend on the recognition
      reply: two lookups for the same clip change only `status`. */
  lemma RecognitionOnlyAffectsStatus(clip: Result<Clip>, lookup1: Result<AcrReply>, lookup2: Result<AcrReply>)
    ensures AnalyzeAudio(clip, lookup1).Report? == AnalyzeAudio(clip, lookup2).Report?
    ensures AnalyzeAudio(clip, lookup1).Failed? ==> AnalyzeAudio(clip, lookup1) == AnalyzeAudio(clip, lookup2)
    ensures AnalyzeAudio(clip, lookup1).Report? ==> AnalyzeAudio(clip, lookup1).(status := NotRecognized) == AnalyzeAudio(clip, lookup2).(status := NotRecognized)
  {
  }
}

=== FILE: artists.dfy ===
/** Artist suggestions for a detected key (`getArtistsForKey`,
    KeyFinder-App/App.js:525-542): artists of a small built-in table who
    often write in the key are scored by how well the detected tempo fits
    their usual range and ranked, best first, keeping at most five. */
module Artists {
  import opened Common
  import opened Sorting

  datatype BpmRange = BpmRange(min: int, max: int, avg: int)

  datatype TopSong = TopSong(title: string, key: string, bpm: int, popularity: int)

  /** One entry of the table: the keys the artist uses most, most used
      first. */
  datatype ArtistProfile = ArtistProfile(
    name: string,
    mostUsedKeys: seq<string>,
    bpmRange: BpmRange,
    topSongs: seq<TopSong>)

  /** One suggestion. */
  datatype ArtistMatch = ArtistMatch(
    name: string,
    keyRank: int,
    bpmMatch: bool,
    bpmDistance: int,
    avgBpm: int,
    songsInKey: seq<TopSong>,
    confidence: int)

  /** `.slice(0, 5)`. */
  const MaxSuggestions: nat := 5

  /** `artistDatabase`, in its insertion order (the order of
      `Object.entries`). */
  const ArtistDatabase: seq<ArtistProfile> := [
    ArtistProfile(
      "Drake",
      ["A Minor", "D Minor", "E Minor", "C Major"],
      BpmRange(70, 140, 105),
      [
        TopSong("God's Plan", "A Minor", 77, 98),
        TopSong("Hotline Bling", "D Minor", 135, 94),
        TopSong("In My Feelings", "E Minor", 91, 92),
        TopSong("One Dance", "C Major", 104, 89)
      ]),
    ArtistProfile(
      "Travis Scott",
      ["A Minor", "G Minor", "D Major", "E Major"],
      BpmRange(130, 180, 155),
      [
        TopSong("Sicko Mode", "A Minor", 155, 95),
        TopSong("Antidote", "D Major", 140, 88),
        TopSong("Goosebumps", "E Major", 130, 90),
        TopSong("Highest in the Room", "G Minor", 130, 87)
      ]),
    ArtistProfile(
      "Post Malone",
      ["D Minor", "E Minor", "C Major", "G Major"],
      BpmRange(90, 160, 125),
      [
        TopSong("Congratulations", "D Minor", 123, 89),
        TopSong("Rockstar", "E Minor", 160, 96),
        TopSong("Sunflower", "C Major", 90, 91),
        TopSong("Circles", "G Major", 120, 87)
      ]),
    ArtistProfile(
      "Kendrick Lamar",
      ["A Minor", "D Minor", "G Minor", "D Major"],
      BpmRange(80, 160, 120),
      [
        TopSong("HUMBLE.", "A Minor", 150, 92),
        TopSong("DNA", "G Minor", 95, 85),
        TopSong("Money Trees", "D Major", 130, 78),
        TopSong("Alright", "D Minor", 100, 82)
      ]),
    ArtistProfile(
      "Future",
      ["C Minor", "A Minor", "E Major", "G Minor"],
      BpmRange(130, 180, 155),
      [
        TopSong("Mask Off", "C Minor", 150, 88),
        TopSong("Life Is Good", "E Major", 140, 85),
        TopSong("Jumpman", "A Minor", 135, 82),
        TopSong("March Madness", "G Minor", 145, 80)
      ]),
    ArtistProfile(
      "The Weeknd",
      ["G Minor", "A Minor", "E Minor", "D Minor"],
      BpmRange(80, 140, 110),
      [
        TopSong("Starboy", "G Minor", 186, 90),
        TopSong("Blinding Lights", "G Minor", 171, 94),
        TopSong("The Hills", "A Minor", 113, 88),
        TopSong("Can't Feel My Face", "E Minor", 108, 86)
      ]),
    ArtistProfile(
      "Juice WRLD",
      ["E Minor", "A Minor", "D Minor", "G Major"],
      BpmRange(70, 140, 105),
      [
        TopSong("Lucid Dreams", "E Minor", 84, 93),
        TopSong("All Girls Are The Same", "A Minor", 85, 78),
        TopSong("Robbery", "D Minor", 140, 82),
        TopSong("Legends", "G Major", 72, 75)
      ]),
    ArtistProfile(
      "Lil Baby",
      ["A Minor", "C Minor", "D Minor", "G Minor"],
      BpmRange(120, 160, 140),
      [
        TopSong("Drip Too Hard", "A Minor", 140, 85),
        TopSong("Yes Indeed", "C Minor", 143, 82),
        TopSong("Life Goes On", "D Minor", 135, 78),
        TopSong("Emotionally Scarred", "G Minor", 125, 80)
      ])
  ]

  function Abs(n: int): (r: nat)
    ensures r == n || r == -n
  {
    if n < 0 then -n else n
  }

  /** The artist's top songs written in `key`, in table order. */
  function SongsInKey(songs: seq<TopSong>, key: string): (r: seq<TopSong>)
    ensures forall s :: s in r <==> s in songs && s.key == key
    ensures OrderKept(r, songs)
  {
    FilterKeepsOrder(songs, (s: TopSong) => s.key == key);
    Filter(songs, (s: TopSong) => s.key == key)
  }

  /** The suggestion built for an artist who uses `key`: the key's rank in
      the artist's list (from 1), whether the tempo lies in the artist's
      range, its distance from the average, and a confidence of 95, 85, 75
      or 65. */
  function MatchFor(a: ArtistProfile, key: string, bpm: int): (m: ArtistMatch)
    requires key in a.mostUsedKeys
    ensures m.name == a.name && m.avgBpm == a.bpmRange.avg
    ensures 1 <= m.keyRank <= |a.mostUsedKeys|
    ensures a.mostUsedKeys[m.keyRank - 1] == key && key !in a.mostUsedKeys[..m.keyRank - 1]
    ensures m.bpmMatch <==> a.bpmRange.min <= bpm <= a.bpmRange.max
    ensures m.bpmDistance >= 0 && (m.bpmDistance == bpm - a.bpmRange.avg || m.bpmDistance == a.bpmRange.avg - bpm)
    ensures forall s :: s in m.songsInKey <==> s in a.topSongs && s.key == key
    ensures ConfidenceAgrees(m)
  {
    var rank := IndexOf(a.mostUsedKeys, key) + 1;
    var bpmMatch := a.bpmRange.min <= bpm <= a.bpmRange.max;
    ArtistMatch(
      a.name,
      rank,
      bpmMatch,
      Abs(bpm - a.bpmRange.avg),
      a.bpmRange.avg,
      SongsInKey(a.topSongs, key),
      if bpmMatch then (if rank == 1 then 95 else 85) else (if rank == 1 then 75 else 65))
  }

  /** What a confidence value says about a suggestion: 85 or more exactly
      for a tempo in range, 95 or 75 exactly for the artist's favourite
      key. */
  ghost predicate ConfidenceAgrees(m: ArtistMatch)
  {
    && m.keyRank >= 1
    && m.confidence in {65, 75, 85, 95}
    && (m.confidence >= 85 <==> m.bpmMatch)
    && ((m.confidence == 95 || m.confidence == 75) <==> m.keyRank == 1)
  }

  /** `m` is the suggestion for some artist of `db` who uses `key`. */
  ghost predicate FromDatabase(m: ArtistMatch, db: seq<ArtistProfile>, key: string, bpm: int)
  {
    exists a :: a in db && key in a.mostUsedKeys && m == MatchFor(a, key, bpm)
  }

  lemma FromTailFromDatabase(ms: seq<ArtistMatch>, db: seq<ArtistProfile>, key: string, bpm: int)
    requires |db| > 0
    requires forall m :: m in ms ==> FromDatabase(m, db[1..], key, bpm)
    ensures forall m :: m in ms ==> FromDatabase(m, db, key, bpm)
  {
    forall m | m in ms
      ensures FromDatabase(m, db, key, bpm)
    {
      var a :| a in db[1..] && key in a.mostUsedKeys && m == MatchFor(a, key, bpm);
      assert a in db;
    }
  }

  /** The test `artist.mostUsedKeys.includes(key)`. */
  function UsesKey(key: string): (uses: ArtistProfile -> bool)
    ensures forall a :: uses(a) <==> key in a.mostUsedKeys
  {
    (a: ArtistProfile) => key in a.mostUsedKeys
  }

  /** `matchingArtists` before sorting: one suggestion per artist using the
      key, in table order. */
  function Candidates(db: seq<ArtistProfile>, key: string, bpm: int): (ms: seq<ArtistMatch>)
    ensures |ms| <= |db|
    ensures forall a :: a in db && key in a.mostUsedKeys ==> MatchFor(a, key, bpm) in ms
    ensures forall m :: m in ms ==> FromDatabase(m, db, key, bpm) && ConfidenceAgrees(m)
    decreases |db|
  {
    if |db| == 0 then []
    else
      var rest := Candidates(db[1..], key, bpm);
      assert forall a :: a in db ==> a == db[0] || a in db[1..];
      FromTailFromDatabase(rest, db, key, bpm);
      if key in db[0].mostUsedKeys then
        var m := MatchFor(db[0], key, bpm);
        assert FromDatabase(m, db, key, bpm) by {
          assert db[0] in db;
        }
        [m] + rest
      else rest
  }

  /** `ms` holds one suggestion for each artist of `users`, in order. */
  predicate FollowsArtists(ms: seq<ArtistMatch>, users: seq<ArtistProfile>, key: string, bpm: int)
  {
    && |ms| == |users|
    && forall i :: 0 <= i < |ms| ==> key in users[i].mostUsedKeys && ms[i] == MatchFor(users[i], key, bpm)
  }

  lemma {:induction false} FollowsArtistsCons(ms: seq<ArtistMatch>, users: seq<ArtistProfile>, a: ArtistProfile, key: string, bpm: int)
    requires FollowsArtists(ms, users, key, bpm) && key in a.mostUsedKeys
    ensures FollowsArtists([MatchFor(a, key, bpm)] + ms, [a] + users, key, bpm)
  {
    var ms' := [MatchFor(a, key, bpm)] + ms;
    var users' := [a] + users;
    forall i | 1 <= i < |ms'|
      ensures key in users'[i].mostUsedKeys && ms'[i] == MatchFor(users'[i], key, bpm)
    {
      assert ms'[i] == ms[i - 1] && users'[i] == users[i - 1];
    }
  }

  /** The candidates follow the table: the i-th suggestion is the one for
      the i-th artist that uses the key, so there is exactly one per such
      artist and artists that tie in the comparator reach the stable sort
      in table order. */
  lemma {:induction false} CandidatesFollowTable(db: seq<ArtistProfile>, key: string, bpm: int)
    ensures FollowsArtists(Candidates(db, key, bpm), Filter(db, UsesKey(key)), key, bpm)
    decreases |db|
  {
    if |db| > 0 {
      CandidatesFollowTable(db[1..], key, bpm);
      var tail := Filter(db[1..], UsesKey(key));
      var rest := Candidates(db[1..], key, bpm);
      if key in db[0].mostUsedKeys {
        assert Filter(db, UsesKey(key)) == [db[0]] + tail;
        assert Candidates(db, key, bpm) == [MatchFor(db[0], key, bpm)] + rest;
        FollowsArtistsCons(rest, tail, db[0], key, bpm);
      } else {
        assert Filter(db, UsesKey(key)) == tail;
        assert Candidates(db, key, bpm) == rest;
      }
    } else {
      assert Filter(db, UsesKey(key)) == [];
    }
  }

  /** The comparator, read as "comes strictly before": a tempo in range
      first, then a lower key rank, then a smaller tempo distance. */
  predicate ComesBefore(a: ArtistMatch, b: ArtistMatch)
  {
    if a.bpmMatch != b.bpmMatch then a.bpmMatch
    else if a.keyRank != b.keyRank then a.keyRank < b.keyRank
    else a.bpmDistance < b.bpmDistance
  }

  lemma ComesBeforeIsStrictWeakOrder()
    ensures StrictWeakOrder(ComesBefore)
  {
  }

  /** Ranking by the comparator never puts a less confident suggestion
      first. */
  lemma ConfidenceFollowsOrder(a: ArtistMatch, b: ArtistMatch)
    requires ConfidenceAgrees(a) && ConfidenceAgrees(b)
    requires !ComesBefore(b, a)
    ensures a.confidence >= b.confidence
  {
  }

  /** Confidence never rises along a list ranked by the comparator. */
  lemma {:induction false} RankedConfidence(r: seq<ArtistMatch>)
    requires forall m :: m in r ==> ConfidenceAgrees(m)
    requires forall i, j :: 0 <= i < j < |r| ==> !ComesBefore(r[j], r[i])
    ensures forall i, j :: 0 <= i < j < |r| ==> r[i].confidence >= r[j].confidence
  {
    forall i, j | 0 <= i < j < |r|
      ensures r[i].confidence >= r[j].confidence
    {
      assert r[i] in r && r[j] in r;
      ConfidenceFollowsOrder(r[i], r[j]);
    }
  }

  /** `getArtistsForKey` over the table `db` (the built-in table is
      `ArtistDatabase`): the candidates ranked by the comparator, at most
      five of them. */
  function ArtistsForKey(db: seq<ArtistProfile>, detectedKey: string, detectedBpm: int): (r: seq<ArtistMatch>)
    ensures |r| <= MaxSuggestions
    ensures |r| == if |Candidates(db, detectedKey, detectedBpm)| < MaxSuggestions then |Candidates(db, detectedKey, detectedBpm)| else MaxSuggestions
    ensures r == Sort(Candidates(db, detectedKey, detectedBpm), ComesBefore)[..|r|]
    ensures forall m :: m in r ==> m in Candidates(db, detectedKey, detectedBpm)
    ensures |Candidates(db, detectedKey, detectedBpm)| <= MaxSuggestions ==> multiset(r) == multiset(Candidates(db, detectedKey, detectedBpm))
    ensures forall i, j :: 0 <= i < j < |r| ==> !ComesBefore(r[j], r[i])
    ensures forall i, j :: 0 <= i < j < |r| ==> r[i].confidence >= r[j].confidence
  {
    var c := Candidates(db, detectedKey, detectedBpm);
    var n := if |c| <= MaxSuggestions then |c| else MaxSuggestions;
    ComesBeforeIsStrictWeakOrder();
    SortPrefix(c, ComesBefore, n);
    var r := Sort(c, ComesBefore)[..n];
    RankedConfidence(r);
    r
  }

  /** Only the best are kept: a candidate left out of the suggestions does
      not come before any suggestion that was kept. */
  lemma {:induction false} LeftOutAreNoBetter(db: seq<ArtistProfile>, key: string, bpm: int)
    ensures var r := ArtistsForKey(db, key, bpm);
      forall m, x :: m in Candidates(db, key, bpm) && m !in r && x in r ==> !ComesBefore(m, x)
  {
    var c := Candidates(db, key, bpm);
    var ranked := Sort(c, ComesBefore);
    var r := ArtistsForKey(db, key, bpm);
    ComesBeforeIsStrictWeakOrder();
    SortSorted(c, ComesBefore);
    SortKeepsElements(c, ComesBefore);
    LeftOutOfPrefix(ranked, ComesBefore, |r|);
  }

  /** A key no artist of the table uses gives no suggestion. */
  lemma {:induction false} UnusedKeyGivesNone(db: seq<ArtistProfile>, key: string, bpm: int)
    requires forall a :: a in db ==> key !in a.mostUsedKeys
    ensures ArtistsForKey(db, key, bpm) == []
  {
    NoCandidates(db, key, bpm);
  }

  lemma {:induction false} NoCandidates(db: seq<ArtistProfile>, key: string, bpm: int)
    requires forall a :: a in db ==> key !in a.mostUsedKeys
    ensures Candidates(db, key, bpm) == []
    decreases |db|
  {
    if |db| > 0 {
      assert db[0] in db;
      assert forall a :: a in db[1..] ==> a in db;
      NoCandidates(db[1..], key, bpm);
    }
  }

  /** Every artist of the built-in table lists four keys, so a suggestion
      from it ranks the key between 1 and 4. */
  lemma {:induction false} BuiltInRanksAtMostFour(key: string, bpm: int)
    ensures forall m :: m in ArtistsForKey(ArtistDatabase, key, bpm) ==> 1 <= m.keyRank <= 4
  {
    assert forall a :: a in ArtistDatabase ==> |a.mostUsedKeys| == 4;
  }
}

=== FILE: chords.dfy ===
/** The chord-progression catalogue (KeyFinder-Server/server.py:136-286) and
    its lookup `CHORD_PROGRESSIONS.get(key, [])` (server.py:427, 705). */
module Chords {
  import opened Music

  /** `CHORD_PROGRESSIONS`, keyed by key name. */
  const ChordProgressions: map<string, seq<string>> :=
    map[
      "C Major" := ["C - G - Am - F", "C - F - G - C", "C - Am - Dm - G", "C - G/B - Am - G", "F - C - G - Am"],
      "C# Major" := ["C# - G# - A#m - F#", "C# - F# - G# - C#", "C# - A#m - D#m - G#", "F# - C# - G# - A#m"],
      "D Major" := ["D - A - Bm - G", "D - G - A - D", "D - Bm - Em - A", "G - D - A - Bm"],
      "D# Major" := ["D# - A# - Cm - G#", "D# - G# - A# - D#", "D# - Cm - Fm - A#", "G# - D# - A# - Cm"],
      "E Major" := ["E - B - C#m - A", "E - A - B - E", "E - C#m - F#m - B", "A - E - B - C#m"],
      "F Major" := ["F - C - Dm - Bb", "F - Bb - C - F", "F - Dm - Gm - C", "Bb - F - C - Dm"],
      "F# Major" := ["F# - C# - D#m - B", "F# - B - C# - F#", "F# - D#m - G#m - C#", "B - F# - C# - D#m"],
      "G Major" := ["G - D - Em - C", "G - C - D - G", "G - Em - Am - D", "C - G - D - Em"],
      "G# Major" := ["G# - D# - Fm - C#", "G# - C# - D# - G#", "G# - Fm - A#m - D#", "C# - G# - D# - Fm"],
      "A Major" := ["A - E - F#m - D", "A - D - E - A", "A - F#m - Bm - E", "D - A - E - F#m"],
      "A# Major" := ["A# - F - Gm - D#", "A# - D# - F - A#", "A# - Gm - Cm - F", "D# - A# - F - Gm"],
      "B Major" := ["B - F# - G#m - E", "B - E - F# - B", "B - G#m - C#m - F#", "E - B - F# - G#m"],
      "C Minor" := ["Cm - G - G# - D#", "Cm - Fm - G - Cm", "Cm - G# - D# - A#", "Fm - Cm - G - Cm"],
      "C# Minor" := ["C#m - G# - A - E", "C#m - F#m - G# - C#m", "C#m - A - E - B", "F#m - C#m - G# - C#m"],
      "D Minor" := ["Dm - A - Bb - F", "Dm - Gm - A - Dm", "Dm - Bb - F - C", "Gm - Dm - A - Dm"],
      "D# Minor" := ["D#m - A# - B - F#", "D#m - G#m - A# - D#m", "D#m - B - F# - C#", "G#m - D#m - A# - D#m"],
      "E Minor" := ["Em - Bm - C - G", "Em - Am - B - Em", "Em - C - G - D", "Am - Em - B - Em"],
      "F Minor" := ["Fm - C - C# - G#", "Fm - A#m - C - Fm", "Fm - C# - G# - D#", "A#m - Fm - C - Fm"],
      "F# Minor" := ["F#m - C# - D - A", "F#m - Bm - C# - F#m", "F#m - D - A - E", "Bm - F#m - C# - F#m"],
      "G Minor" := ["Gm - D - D# - A#", "Gm - Cm - D - Gm", "Gm - D# - A# - F", "Cm - Gm - D - Gm"],
      "G# Minor" := ["G#m - D# - E - B", "G#m - C#m - D# - G#m", "G#m - E - B - F#", "C#m - G#m - D# - G#m"],
      "A Minor" := ["Am - G - C - F", "Am - F - C - G", "Am - Dm - E - Am", "F - C - G - Am"],
      "A# Minor" := ["A#m - F - F# - C#", "A#m - D#m - F - A#m", "A#m - F# - C# - G#", "D#m - A#m - F - A#m"],
      "B Minor" := ["Bm - F# - G - D", "Bm - Em - F# - Bm", "Bm - G - D - A", "Em - Bm - F# - Bm"]
    ]

  /** `CHORD_PROGRESSIONS.get(name, [])`: unknown names yield no progressions. */
  function ProgressionsFor(name: string): seq<string>
  {
    if name in ChordProgressions then ChordProgressions[name] else []
  }

  /** Every one of the 24 key names has at least four progressions, so the
      analysis response never carries an empty list for a detected key. */
  lemma ProgressionsCoverEveryKey(k: Key)
    ensures |ProgressionsFor(KeyName(k))| >= 4
  {
    if k.mode == Major {
      if k.root < 3 { CoverMajor0(k); }
      else if k.root < 6 { CoverMajor3(k); }
      else if k.root < 9 { CoverMajor6(k); }
      else { CoverMajor9(k); }
    } else {
      if k.root < 3 { CoverMinor0(k); }
      else if k.root < 6 { CoverMinor3(k); }
      else if k.root < 9 { CoverMinor6(k); }
      else { CoverMinor9(k); }
    }
  }

  lemma CoverMajor0(k: Key)
    requires k.mode == Major && 0 <= k.root < 3
    ensures |ProgressionsFor(KeyName(k))| >= 4
  {
    if k.root == 0 { assert KeyName(k) == "C Major"; }
    else if k.root == 1 { assert KeyName(k) == "C# Major"; }
    else { assert KeyName(k) == "D Major"; }
  }

  lemma CoverMajor3(k: Key)
    requires k.mode == Major && 3 <= k.root < 6
    ensures |ProgressionsFor(KeyName(k))| >= 4
  {
    if k.root == 3 { assert KeyName(k) == "D# Major"; }
    else if k.root == 4 { assert KeyName(k) == "E Major"; }
    else { assert KeyName(k) == "F Major"; }
  }

  lemma CoverMajor6(k: Key)
    requires k.mode == Major && 6 <= k.root < 9
    ensures |ProgressionsFor(KeyName(k))| >= 4
  {
    if k.root == 6 { assert KeyName(k) == "F# Major"; }
    else if k.root == 7 { assert KeyName(k) == "G Major"; }
    else { assert KeyName(k) == "G# Major"; }
  }

  lemma CoverMajor9(k: Key)
    requires k.mode == Major && 9 <= k.root < 12
    ensures |ProgressionsFor(KeyName(k))| >= 4
  {
    if k.root == 9 { assert KeyName(k) == "A Major"; }
    else if k.root == 10 { assert KeyName(k) == "A# Major"; }
    else { assert KeyName(k) == "B Major"; }
  }

  lemma CoverMinor0(k: Key)
    requires k.mode == Minor && 0 <= k.root < 3
    ensures |ProgressionsFor(KeyName(k))| >= 4
  {
    if k.root == 0 { assert KeyName(k) == "C Minor"; }
    else if k.root == 1 { assert KeyName(k) == "C# Minor"; }
    else { assert KeyName(k) == "D Minor"; }
  }

  lemma CoverMinor3(k: Key)
    requires k.mode == Minor && 3 <= k.root < 6
    ensures |ProgressionsFor(KeyName(k))| >= 4
  {
    if k.root == 3 { assert KeyName(k) == "D# Minor"; }
    else if k.root == 4 { assert KeyName(k) == "E Minor"; }
    else { assert KeyName(k) == "F Minor"; }
  }

  lemma CoverMinor6(k: Key)
    requires k.mode == Minor && 6 <= k.root < 9
    ensures |ProgressionsFor(KeyName(k))| >= 4
  {
    if k.root == 6 { assert KeyName(k) == "F# Minor"; }
    else if k.root == 7 { assert KeyName(k) == "G Minor"; }
    else { assert KeyName(k) == "G# Minor"; }
  }

  lemma CoverMinor9(k: Key)
    requires k.mode == Minor && 9 <= k.root < 12
    ensures |ProgressionsFor(KeyName(k))| >= 4
  {
    if k.root == 9 { assert KeyName(k) == "A Minor"; }
    else if k.root == 10 { assert KeyName(k) == "A# Minor"; }
    else { assert KeyName(k) == "B Minor"; }
  }
}

=== FILE: common.dfy ===
/** Small shared vocabulary: optional values, exception-carrying results and
    the sequence primitives (`indexOf`, `filter`) both the server and the
    client lean on. */
module Common {

  /** A value that may be absent: Python `None`, JavaScript `null`/`undefined`. */
  datatype Option<+T> = None | Some(value: T)

  /** The outcome of a step that may raise: `Err` carries the exception text. */
  datatype Result<+T> = Ok(value: T) | Err(message: string)

  /** Position of the first `x` in `s`, or -1 (Python `list.index` guarded,
      JavaScript `indexOf`). */
  function IndexOf<T(==)>(s: seq<T>, x: T): (r: int)
    ensures -1 <= r < |s|
    ensures r == -1 <==> x !in s
    ensures 0 <= r ==> s[r] == x
    ensures forall i :: 0 <= i < r ==> s[i] != x
  {
    if |s| == 0 then -1
    else if s[0] == x then 0
    else
      var k := IndexOf(s[1..], x);
      if k == -1 then -1 else k + 1
  }

  /** The elements of `s` satisfying `p`, in their original order. */
  function Filter<T(!new)>(s: seq<T>, p: T -> bool): (r: seq<T>)
    ensures |r| <= |s|
    ensures forall x :: x in r <==> x in s && p(x)
  {
    if |s| == 0 then []
    else if p(s[0]) then [s[0]] + Filter(s[1..], p)
    else Filter(s[1..], p)
  }

  /** Filtering keeps every pairwise relation the input had between earlier
      and later elements (in particular, sortedness). */
  lemma {:induction false} FilterKeepsPairwise<T(!new)>(s: seq<T>, p: T -> bool, rel: (T, T) -> bool)
    requires forall i, j :: 0 <= i < j < |s| ==> rel(s[i], s[j])
    ensures forall i, j :: 0 <= i < j < |Filter(s, p)| ==> rel(Filter(s, p)[i], Filter(s, p)[j])
    decreases |s|
  {
    if |s| > 0 {
      var rest := Filter(s[1..], p);
      FilterKeepsPairwise(s[1..], p, rel);
      if p(s[0]) {
        forall j | 0 <= j < |rest|
          ensures rel(s[0], rest[j])
        {
          assert rest[j] in s[1..];
          var k :| 0 <= k < |s[1..]| && s[1..][k] == rest[j];
          assert s[k + 1] == rest[j];
        }
      }
    }
  }

  /** `x` occurs in `s` before an occurrence of `y`. */
  ghost predicate InOrder<T>(x: T, y: T, s: seq<T>)
  {
    exists i, j :: 0 <= i < j < |s| && x == s[i] && y == s[j]
  }

  /** Any two elements of `r` occur in `s` in the same order. */
  ghost predicate OrderKept<T>(r: seq<T>, s: seq<T>)
  {
    forall i, j :: 0 <= i < j < |r| ==> InOrder(r[i], r[j], s)
  }

  /** Filtering keeps the relative order of the kept elements. */
  lemma {:induction false} FilterKeepsOrder<T(!new)>(s: seq<T>, p: T -> bool)
    ensures OrderKept(Filter(s, p), s)
    decreases |s|
  {
    var f := Filter(s, p);
    if |s| > 0 {
      var rest := Filter(s[1..], p);
      FilterKeepsOrder(s[1..], p);
      forall i, j | 0 <= i < j < |f|
        ensures InOrder(f[i], f[j], s)
      {
        if p(s[0]) && i == 0 {
          assert f[j] == rest[j - 1];
          assert rest[j - 1] in s[1..];
          var k :| 0 <= k < |s[1..]| && s[1..][k] == rest[j - 1];
          assert f[0] == s[0] && f[j] == s[k + 1];
        } else {
          var d := if p(s[0]) then 1 else 0;
          assert f[i] == rest[i - d] && f[j] == rest[j - d];
          assert InOrder(rest[i - d], rest[j - d], s[1..]);
          var i', j' :| 0 <= i' < j' < |s[1..]| && rest[i - d] == s[1..][i'] && rest[j - d] == s[1..][j'];
          assert f[i] == s[i' + 1] && f[j] == s[j' + 1];
        }
      }
    } else {
      assert |f| == 0;
    }
  }

  /** Order kept within a slice of `s` is order kept within `s`. */
  lemma {:induction false} OrderKeptInSlice<T>(r: seq<T>, s: seq<T>, lo: int, hi: int)
    requires 0 <= lo <= hi <= |s|
    requires OrderKept(r, s[lo..hi])
    ensures OrderKept(r, s)
  {
    forall i, j | 0 <= i < j < |r|
      ensures InOrder(r[i], r[j], s)
    {
      assert InOrder(r[i], r[j], s[lo..hi]);
      var i', j' :| 0 <= i' < j' < hi - lo && r[i] == s[lo..hi][i'] && r[j] == s[lo..hi][j'];
      assert r[i] == s[lo + i'] && r[j] == s[lo + j'];
    }
  }
}

=== FILE: dropbox_browser.dfy ===
/** The Dropbox browser of the detect screen
    (KeyFinder-App/DropboxBrowser.js:69-420): it opens at a folder the user
    picked, lists it, moves up and down the tree without climbing above the
    picked folder (except for one step to the root), and keeps, per file, the
    key found by an analysis on the server. Playback, the loading spinner
    of the listing and the asynchronous order of React state updates are
    not modelled: each handler goes straight to the state it ends in. */
module DropboxBrowser {
  import opened Common
  import opened Strings
  import opened Music
  import opened FolderNav
  import opened FolderPicker
  import opened KeyDetection
  import opened Recognition
  import opened Analysis

  /** What is known about one file's analysis: the key to show, if any, and
      whether a request is under way. */
  datatype AnalysisEntry = AnalysisEntry(key: Option<string>, isAnalyzing: bool)

  /** The component's state. `results` is `analyzedFileResults`, keyed by
      the Dropbox file id; `playing` is the file being played. */
  datatype BrowserState = BrowserState(
    initialPath: string,
    initialFolderName: string,
    currentPath: string,
    folderContents: seq<Entry>,
    results: map<string, AnalysisEntry>,
    playing: Option<Entry>)

  /** The key shown for a file whose analysis failed. */
  const ErrorKey: string := "N/A (Error)"

  /** The caption of the analyse button before any key is known. */
  const AnalyzeCaption: string := "Analyze Key"

  const KeyCaptionPrefix: string := "Key: "

  /** `loadFolder`: stop playback, forget the analyses of the folder being
      left, then list `path` and make it current. */
  function LoadFolder(s: BrowserState, listing: Listing, path: string): (t: BrowserState)
    ensures t.currentPath == path
    ensures t.results == map[] && t.playing == None
    ensures t.folderContents == ListFolder(listing, path)
    ensures t.initialPath == s.initialPath && t.initialFolderName == s.initialFolderName
  {
    s.(currentPath := path, folderContents := ListFolder(listing, path), results := map[], playing := None)
  }

  /** The browser as it is mounted with a signed-in account: the picked
      folder is loaded at once. */
  function OpenBrowser(listing: Listing, initialPath: string, initialFolderName: string): (s: BrowserState)
    ensures s.currentPath == s.initialPath == initialPath
    ensures s.initialFolderName == initialFolderName
    ensures s.folderContents == ListFolder(listing, initialPath)
    ensures s.results == map[] && s.playing == None
  {
    LoadFolder(BrowserState(initialPath, initialFolderName, initialPath, [], map[], None), listing, initialPath)
  }

  /** Where `handleGoBack` goes: from the picked folder to the Dropbox root;
      from anywhere else to the part of the path before its last `/`, but
      never to a path shorter than the picked folder's, which is used
      instead. */
  function GoBackTarget(currentPath: string, initialPath: string): (target: string)
    ensures currentPath == initialPath ==> target == ""
    ensures currentPath != initialPath ==> |initialPath| <= |target|
    ensures currentPath != initialPath ==>
      target == initialPath || (|target| < |currentPath| && target == currentPath[..|target|])
    ensures currentPath != initialPath && |GoUp(currentPath)| < |initialPath| ==> target == initialPath
    ensures currentPath != initialPath && |GoUp(currentPath)| >= |initialPath| ==> target == GoUp(currentPath)
  {
    if currentPath == initialPath then ""
    else
      var parent := Substring(currentPath, 0, LastIndexOf(currentPath, '/'));
      ParentIsGoUp(currentPath);
      if |parent| < |initialPath| then initialPath else parent
  }

  /** The parent computed by `handleGoBack` is the one `goUp` computes. */
  lemma ParentIsGoUp(path: string)
    ensures Substring(path, 0, LastIndexOf(path, '/')) == GoUp(path)
  {
  }

  /** `handleGoBack`. */
  function GoBack(s: BrowserState, listing: Listing): (t: BrowserState)
    ensures t.currentPath == GoBackTarget(s.currentPath, s.initialPath)
    ensures s.currentPath == s.initialPath ==> t.currentPath == ""
    ensures s.currentPath != s.initialPath ==> |s.initialPath| <= |t.currentPath|
    ensures t.results == map[] && t.playing == None
    ensures t.folderContents == ListFolder(listing, t.currentPath)
    ensures t.initialPath == s.initialPath && t.initialFolderName == s.initialFolderName
  {
    LoadFolder(s, listing, GoBackTarget(s.currentPath, s.initialPath))
  }

  /** Below the picked folder, going back never leaves it. */
  lemma {:induction false} GoBackStaysInSelection(currentPath: string, initialPath: string)
    requires currentPath != initialPath && StartsWith(currentPath, initialPath)
    ensures StartsWith(GoBackTarget(currentPath, initialPath), initialPath)
  {
    var target := GoBackTarget(currentPath, initialPath);
    if target != initialPath {
      assert target[..|initialPath|] == currentPath[..|target|][..|initialPath|];
    }
  }

  /** The clamp looks at lengths only: with `/music` picked, going back
      from `/x/abcdef` lands in `/music`, not in `/x`. */
  lemma {:induction false} GoBackClampsByLength()
    ensures GoUp("/x/abcdef") == "/x"
    ensures GoBackTarget("/x/abcdef", "/music") == "/music"
  {
    LastSlashOfSample();
    assert "/x/abcdef"[0..2] == "/x";
  }

  /** The last `/` of `/x/abcdef` is at index 2. */
  lemma LastSlashOfSample()
    ensures LastIndexOf("/x/abcdef", '/') == 2
  {
    var s := "/x/abcdef";
    assert s[2] == '/';
    assert forall i :: 2 < i < |s| ==> s[i] != '/';
    LastIndexOfAt(s, '/', 2);
  }

  /** With the Dropbox root as the picked folder, going back is `goUp`. */
  lemma {:induction false} GoBackWithoutSelectionIsGoUp(currentPath: string)
    ensures GoBackTarget(currentPath, "") == GoUp(currentPath)
  {
    ParentIsGoUp(currentPath);
  }

  /** Opening a sub-folder at or below the picked folder and going back
      returns to the folder it was opened from. */
  lemma {:induction false} GoBackUndoesOpen(parent: string, name: string, initialPath: string)
    requires '/' !in name && |initialPath| <= |parent|
    ensures GoBackTarget(parent + "/" + name, initialPath) == parent
  {
    ParentIsGoUp(parent + "/" + name);
    GoUpFromChild(parent, name);
  }

  /** From a picked folder other than the root, going back twice returns
      to it: the first step goes to the root, the second, finding a path
      shorter than the picked one, back to the picked folder. */
  lemma {:induction false} GoBackCyclesThroughRoot(initialPath: string)
    requires initialPath != ""
    ensures GoBackTarget(initialPath, initialPath) == ""
    ensures GoBackTarget("", initialPath) == initialPath
  {
  }

  /** The header: the picked folder's name at the picked folder, elsewhere
      the path past the picked folder's length, or `/` when nothing is
      left. */
  function HeaderLabel(currentPath: string, initialPath: string, initialFolderName: string): (shown: string)
    ensures currentPath == initialPath ==> shown == initialFolderName
    ensures currentPath != initialPath ==> shown != ""
    ensures currentPath != initialPath && |currentPath| <= |initialPath| ==> shown == "/"
    ensures |currentPath| > |initialPath| ==> shown == currentPath[|initialPath|..]
  {
    if currentPath == initialPath then initialFolderName
    else
      var rest := SubstringFrom(currentPath, |initialPath|);
      if rest == "" then "/" else rest
  }

  /** The header as written garbles a path outside the picked folder: with
      `/music` picked, going back to the root and opening `/photos` shows
      the header `s`, the tail of `/photos` past six characters, and
      `/videos` shows the same header. A sibling whose name merely extends
      the picked one, `/music2`, shows `2`. */
  lemma HeaderGarbledOutsideSelection(listing: Listing)
    ensures var s := OpenBrowser(listing, "/music", "Music");
      var t := LoadFolder(GoBack(s, listing), listing, "/photos");
      HeaderLabel(t.currentPath, t.initialPath, t.initialFolderName) == "s"
    ensures HeaderLabel("/videos", "/music", "Music") == HeaderLabel("/photos", "/music", "Music")
    ensures HeaderLabel("/music2", "/music", "Music") == "2"
  {
    assert "/photos"[6..] == "s";
    assert "/videos"[6..] == "s";
    assert "/music2"[6..] == "2";
  }

  /** `currentPath` is the picked folder or lies below it, path component
      by path component; with the root picked every path does. */
  predicate InsideSelection(currentPath: string, initialPath: string)
  {
    currentPath == initialPath || initialPath == "" || StartsWith(currentPath, initialPath + "/")
  }

  /** The header as evidently intended: the path relative to the picked
      folder only for a path inside it, and the full path (`/` for the
      root) anywhere else. */
  function IntendedHeaderLabel(currentPath: string, initialPath: string, initialFolderName: string): (shown: string)
    ensures currentPath == initialPath ==> shown == initialFolderName
    ensures currentPath != initialPath && InsideSelection(currentPath, initialPath) ==>
      currentPath == initialPath + shown && shown != ""
    ensures !InsideSelection(currentPath, initialPath) ==> shown == PathLabel(currentPath)
  {
    if currentPath == initialPath then initialFolderName
    else if InsideSelection(currentPath, initialPath) then
      assert currentPath == initialPath + currentPath[|initialPath|..];
      currentPath[|initialPath|..]
    else PathLabel(currentPath)
  }

  /** Inside the picked folder the code's header is the intended one, so
      the two differ only outside it. */
  lemma IntendedHeaderAgreesInside(currentPath: string, initialPath: string, initialFolderName: string)
    requires InsideSelection(currentPath, initialPath)
    ensures IntendedHeaderLabel(currentPath, initialPath, initialFolderName) == HeaderLabel(currentPath, initialPath, initialFolderName)
  {
  }

  /** Outside the picked folder the intended header names the whole path,
      so two different folders there never share a header. */
  lemma IntendedHeaderDistinguishesOutside(p: string, q: string, initialPath: string, name: string)
    requires !InsideSelection(p, initialPath) && !InsideSelection(q, initialPath)
    requires p != "" && q != "" && p != q
    ensures IntendedHeaderLabel(p, initialPath, name) != IntendedHeaderLabel(q, initialPath, name)
  {
  }

  /** A sibling whose name extends the picked folder's is outside it and
      keeps its full path in the intended header. */
  lemma {:induction false} IntendedHeaderShowsSiblingInFull()
    ensures !InsideSelection("/music2", "/music")
    ensures IntendedHeaderLabel("/music2", "/music", "Music") == "/music2"
  {
    assert "/music2"[..7] != "/music" + "/" by {
      assert "/music2"[6] == '2';
      assert ("/music" + "/")[6] == '/';
    }
  }

  /** Below the picked folder the header shows the path relative to it. */
  lemma {:induction false} HeaderShowsRelativePath(initialPath: string, rest: string, name: string)
    requires rest != ""
    ensures HeaderLabel(initialPath + rest, initialPath, name) == rest
  {
    assert (initialPath + rest)[|initialPath|..] == rest;
  }

  /** With the root as the picked folder, the header away from the root is
      the folder picker's path label. */
  lemma {:induction false} HeaderWithoutSelectionIsPathLabel(currentPath: string, name: string)
    requires currentPath != ""
    ensures HeaderLabel(currentPath, "", name) == PathLabel(currentPath)
  {
    assert currentPath[0..] == currentPath;
  }

  /** The local file an analysis downloads to: the cache directory followed
      by the file name with every blank turned into `-`. */
  function CacheUri(cacheDirectory: string, fileName: string): (uri: string)
    ensures |uri| == |cacheDirectory| + |fileName|
    ensures StartsWith(uri, cacheDirectory)
    ensures uri[..|cacheDirectory|] == cacheDirectory
    ensures forall i :: 0 <= i < |fileName| ==> uri[|cacheDirectory| + i] == (if fileName[i] == ' ' then '-' else fileName[i])
    ensures ' ' !in uri[|cacheDirectory|..]
  {
    var uri := cacheDirectory + ReplaceAll(fileName, ' ', '-');
    assert uri[|cacheDirectory|..] == ReplaceAll(fileName, ' ', '-');
    uri
  }

  /** Names without blanks get distinct cache files. */
  lemma {:induction false} CacheUriInjectiveWithoutBlanks(dir: string, a: string, b: string)
    requires ' ' !in a && ' ' !in b
    requires CacheUri(dir, a) == CacheUri(dir, b)
    ensures a == b
  {
    var ra := ReplaceAll(a, ' ', '-');
    var rb := ReplaceAll(b, ' ', '-');
    assert ra == CacheUri(dir, a)[|dir|..];
    assert rb == CacheUri(dir, b)[|dir|..];
    forall i | 0 <= i < |a|
      ensures a[i] == b[i]
    {
      assert a[i] != ' ' && b[i] != ' ';
      assert ra[i] == rb[i];
    }
  }

  /** A blank and a `-` in the same place give the same cache file, so two
      files such as `my song.mp3` and `my-song.mp3` share one. */
  lemma {:induction false} BlankAndDashShareCacheFile(dir: string, left: string, right: string)
    ensures CacheUri(dir, left + " " + right) == CacheUri(dir, left + "-" + right)
  {
    var a := left + " " + right;
    var b := left + "-" + right;
    assert forall i :: 0 <= i < |a| ==> ReplaceAll(a, ' ', '-')[i] == ReplaceAll(b, ' ', '-')[i];
  }

  /** The first step of `handleFileAnalyze`: the file is marked as being
      analysed, with no key yet. */
  function StartAnalysis(results: map<string, AnalysisEntry>, fileId: string): (r: map<string, AnalysisEntry>)
    ensures fileId in r && r[fileId].isAnalyzing && r[fileId].key == None
    ensures forall id :: id != fileId ==> (id in r <==> id in results)
    ensures forall id :: id != fileId && id in results ==> r[id] == results[id]
  {
    results[fileId := AnalysisEntry(None, true)]
  }

  /** The key recorded when the server's answer arrives. `None` stands for
      every failure on the way (no link, a failed download, a failed
      request); a reply is an error when its `error` field is non-empty
      (an empty one is falsy and lets the reply through, with no `key`). */
  function KeyFromReply(reply: Option<AnalysisResponse>): (key: Option<string>)
    ensures reply.None? ==> key == Some(ErrorKey)
    ensures reply.Some? && reply.value.Report? ==> key == Some(reply.value.key)
    ensures reply.Some? && reply.value.Failed? && reply.value.error != "" ==> key == Some(ErrorKey)
    ensures reply.Some? && reply.value.Failed? && reply.value.error == "" ==> key == None
  {
    match reply
    case None => Some(ErrorKey)
    case Some(Report(k, _, _, _, _, _, _)) => Some(k)
    case Some(Failed(e)) => if e != "" then Some(ErrorKey) else None
  }

  /** The last step of `handleFileAnalyze`: the file's entry is replaced
      by the key found, and no other entry changes. */
  function FinishAnalysis(results: map<string, AnalysisEntry>, fileId: string, reply: Option<AnalysisResponse>): (r: map<string, AnalysisEntry>)
    ensures fileId in r && !r[fileId].isAnalyzing && r[fileId].key == KeyFromReply(reply)
    ensures forall id :: id != fileId ==> (id in r <==> id in results)
    ensures forall id :: id != fileId && id in results ==> r[id] == results[id]
  {
    results[fileId := AnalysisEntry(KeyFromReply(reply), false)]
  }

  /** `handleFileAnalyze` on the whole state: nothing happens without an
      access token; otherwise the file's entry goes through both steps. */
  function AnalyzeFile(s: BrowserState, signedIn: bool, file: Entry, reply: Option<AnalysisResponse>): (t: BrowserState)
    ensures !signedIn ==> t == s
    ensures t.(results := s.results) == s
    ensures signedIn ==> EntryOf(t.results, file.id) == Some(AnalysisEntry(KeyFromReply(reply), false))
    ensures forall id :: id != file.id ==> EntryOf(t.results, id) == EntryOf(s.results, id)
  {
    if !signedIn then s
    else s.(results := FinishAnalysis(StartAnalysis(s.results, file.id), file.id, reply))
  }

  /** What the analyse button of a file shows. */
  datatype ButtonFace = Spinner | Caption(text: string)

  /** The analyse button for the file's entry in `results`, if it has one:
      a spinner while analysing, the key once one is known, otherwise the
      invitation to analyse. */
  function ButtonLabel(entry: Option<AnalysisEntry>): (face: ButtonFace)
    ensures face.Spinner? <==> entry.Some? && entry.value.isAnalyzing
    ensures face.Caption? && entry.Some? && entry.value.key.Some? && entry.value.key.value != "" ==>
      face.text == KeyCaptionPrefix + entry.value.key.value
    ensures face.Caption? && !(entry.Some? && entry.value.key.Some? && entry.value.key.value != "") ==>
      face.text == AnalyzeCaption
  {
    if entry.Some? && entry.value.isAnalyzing then Spinner
    else if entry.Some? && entry.value.key.Some? && entry.value.key.value != "" then
      Caption(KeyCaptionPrefix + entry.value.key.value)
    else Caption(AnalyzeCaption)
  }

  /** The entry of file `id`, `undefined` when there is none. */
  function EntryOf(results: map<string, AnalysisEntry>, id: string): Option<AnalysisEntry>
  {
    if id in results then Some(results[id]) else None
  }

  /** A freshly loaded folder shows the invitation to analyse on every
      file. */
  lemma FreshFolderInvitesAnalysis(s: BrowserState, listing: Listing, path: string, id: string)
    ensures ButtonLabel(EntryOf(LoadFolder(s, listing, path).results, id)) == Caption(AnalyzeCaption)
  {
  }

  /** While the server works, the file shows a spinner. */
  lemma AnalysisInProgressShowsSpinner(results: map<string, AnalysisEntry>, id: string)
    ensures ButtonLabel(EntryOf(StartAnalysis(results, id), id)) == Spinner
  {
  }

  /** Every failure the analysis pipeline reports carries a message. */
  lemma AnalysisFailuresHaveMessages(clip: Result<Clip>, lookup: Result<AcrReply>)
    ensures AnalyzeAudio(clip, lookup).Failed? ==> AnalyzeAudio(clip, lookup).error != ""
  {
    if clip.Err? {
      assert |FailurePrefix + clip.message| >= |FailurePrefix|;
    }
  }

  /** The whole round for one file, with the server running the analysis
      pipeline: a report shows its key, every failure the error mark, and
      the entries of other files are untouched. */
  lemma {:induction false} AnalyzedFileShowsOutcome(s: BrowserState, file: Entry, clip: Result<Clip>, lookup: Result<AcrReply>)
    ensures var resp := AnalyzeAudio(clip, lookup);
      var t := AnalyzeFile(s, true, file, Some(resp));
      && (resp.Report? ==> ButtonLabel(EntryOf(t.results, file.id)) == Caption(KeyCaptionPrefix + resp.key))
      && (resp.Failed? ==> ButtonLabel(EntryOf(t.results, file.id)) == Caption(KeyCaptionPrefix + ErrorKey))
      && (forall id :: id != file.id ==> EntryOf(t.results, id) == EntryOf(s.results, id))
  {
    var resp := AnalyzeAudio(clip, lookup);
    AnalysisFailuresHaveMessages(clip, lookup);
    if resp.Report? {
      var k := DetectKey(clip.value.correlations).key;
      assert resp.key == KeyName(k);
      assert |KeyName(k)| > 0;
    }
  }
}

=== FILE: folder_nav.dfy ===
/** Dropbox folder listings as the client sees them, and the in-app file
    browser of KeyFinder-App/App.js (108-177): which entries it lists and
    how it moves to the parent folder. Paths are Dropbox `path_lower`
    strings; the root is the empty path. */
module FolderNav {
  import opened Common
  import opened Strings

  /** The `.tag` of a listed entry. */
  datatype Tag = FileTag | FolderTag | DeletedTag

  /** One entry of a `list_folder` reply. */
  datatype Entry = Entry(tag: Tag, name: string, pathLower: string, id: string)

  /** The listing service, as a function of the requested path: `None` when
      the request fails (an error status or an exception). */
  type Listing = string -> Option<seq<Entry>>

  /** `listFolderContents` of the picker and the browser: the entries, or
      an empty list when the request fails. */
  function ListFolder(listing: Listing, path: string): seq<Entry>
  {
    if listing(path).Some? then listing(path).value else []
  }

  /** Lower-case file extensions the browser lists. */
  const AudioExtensions: seq<string> := [".wav", ".mp3", ".aiff", ".m4a"]

  /** A name ending, ignoring case, in one of the audio extensions. */
  predicate IsAudioName(name: string)
  {
    exists i :: 0 <= i < |AudioExtensions| && EndsWith(Lower(name), AudioExtensions[i])
  }

  /** What the in-app browser shows of a listing: folders and audio files,
      in listing order. */
  function BrowsableEntries(entries: seq<Entry>): (shown: seq<Entry>)
    ensures forall e :: e in shown <==> e in entries && (e.tag == FolderTag || IsAudioName(e.name))
    ensures |shown| <= |entries|
    ensures OrderKept(shown, entries)
  {
    FilterKeepsOrder(entries, (e: Entry) => e.tag == FolderTag || IsAudioName(e.name));
    Filter(entries, (e: Entry) => e.tag == FolderTag || IsAudioName(e.name))
  }

  /** The path `fetchItems` asks the listing service for: the root `/` is
      requested as the empty path. */
  function RequestPath(path: string): (requested: string)
    ensures path == "/" ==> requested == ""
    ensures path != "/" ==> requested == path
  {
    if path == "/" then "" else path
  }

  /** `fetchItems`: without an access token nothing is requested and the
      items stay; on a failed request the previous items stay on screen;
      otherwise the folders and audio files of the listing replace them. */
  function FetchItems(items: seq<Entry>, signedIn: bool, path: string, listing: Listing): (shown: seq<Entry>)
    ensures !signedIn ==> shown == items
    ensures signedIn && listing(RequestPath(path)).None? ==> shown == items
    ensures signedIn && listing(RequestPath(path)).Some? ==>
      shown == BrowsableEntries(listing(RequestPath(path)).value)
    ensures signedIn && listing(RequestPath(path)).Some? ==>
      forall e :: e in shown <==> e in listing(RequestPath(path)).value && (e.tag == FolderTag || IsAudioName(e.name))
  {
    if !signedIn then items
    else
      var reply := listing(if path == "/" then "" else path);
      if reply.Some? then BrowsableEntries(reply.value) else items
  }

  lemma {:induction false} LowerIdempotent(s: string)
    ensures Lower(Lower(s)) == Lower(s)
  {
  }

  /** The audio test ignores case: a name and its lower-case form are
      treated alike. */
  lemma {:induction false} AudioNameIgnoresCase(name: string)
    ensures IsAudioName(Lower(name)) <==> IsAudioName(name)
  {
    LowerIdempotent(name);
  }

  /** `goUp`: the path up to its last `/`; the root stays put, and a path
      without `/` goes to the root. */
  function GoUp(currentPath: string): (parent: string)
    ensures currentPath == "" ==> parent == ""
    ensures currentPath != "" ==> |parent| < |currentPath| && parent == currentPath[..|parent|]
    ensures '/' !in currentPath ==> parent == ""
  {
    if currentPath == "" then ""
    else Substring(currentPath, 0, LastIndexOf(currentPath, '/'))
  }

  /** The position of the separator in front of a `/`-free last segment. */
  lemma {:induction false} LastSlashBeforeName(parent: string, name: string)
    requires '/' !in name
    ensures LastIndexOf(parent + "/" + name, '/') == |parent|
  {
    var s := parent + "/" + name;
    assert s[|parent|] == '/';
    forall i | |parent| < i < |s|
      ensures s[i] != '/'
    {
      assert s[i] == name[i - |parent| - 1];
    }
    LastIndexOfAt(s, '/', |parent|);
  }

  /** Going up from a child folder returns to the folder it was opened
      from: `GoUp` undoes `parent + "/" + name`. */
  lemma {:induction false} GoUpFromChild(parent: string, name: string)
    requires '/' !in name
    ensures GoUp(parent + "/" + name) == parent
  {
    LastSlashBeforeName(parent, name);
    assert (parent + "/" + name)[..|parent|] == parent;
  }
}

=== FILE: folder_picker.dfy ===
/** The folder picker dialog (KeyFinder-App/DropboxFolderPicker.js:40-137):
    it walks the Dropbox tree from the root, lists only folders, and moves
    back up one level at a time. Loading indicators and the asynchronous
    order of React state updates are not modelled: each handler goes
    straight to the state it ends in. */
module FolderPicker {
  import opened Common
  import opened Strings
  import opened FolderNav

  datatype PickerState = PickerState(currentPath: string, folderContents: seq<Entry>)

  /** The picker as it opens: the root, before anything is listed. */
  const InitialPicker: PickerState := PickerState("", [])

  /** `loadFolder`: list `path` and make it the current folder. */
  function LoadFolder(listing: Listing, path: string): (s: PickerState)
    ensures s.currentPath == path
    ensures listing(path).None? ==> s.folderContents == []
    ensures listing(path).Some? ==> s.folderContents == listing(path).value
  {
    PickerState(path, ListFolder(listing, path))
  }

  /** `handleGoBack`: nothing at the root, otherwise load the part of the
      path before its last `/` (the root when there is none). */
  function GoBack(s: PickerState, listing: Listing): (t: PickerState)
    ensures s.currentPath == "" ==> t == s
    ensures s.currentPath != "" ==> |t.currentPath| < |s.currentPath| && t.currentPath == s.currentPath[..|t.currentPath|]
    ensures s.currentPath != "" ==> t.folderContents == ListFolder(listing, t.currentPath)
  {
    if s.currentPath == "" then s
    else
      var lastSlash := LastIndexOf(s.currentPath, '/');
      var parent := if lastSlash == -1 then "" else Substring(s.currentPath, 0, lastSlash);
      LoadFolder(listing, parent)
  }

  /** The picker's back step and the in-app browser's `goUp` agree on the
      parent folder. */
  lemma GoBackAgreesWithGoUp(s: PickerState, listing: Listing)
    ensures GoBack(s, listing).currentPath == GoUp(s.currentPath)
  {
  }

  /** Opening a sub-folder and going back restores the picker exactly
      (for a listing that answers the same way twice). */
  lemma {:induction false} GoBackUndoesOpen(listing: Listing, parent: string, name: string)
    requires '/' !in name
    ensures GoBack(LoadFolder(listing, parent + "/" + name), listing) == LoadFolder(listing, parent)
  {
    GoUpFromChild(parent, name);
    GoBackAgreesWithGoUp(LoadFolder(listing, parent + "/" + name), listing);
  }

  /** The path shown in the title bar: the root is shown as `/`. */
  function PathLabel(path: string): (shown: string)
    ensures shown != ""
    ensures path == "" ==> shown == "/"
    ensures path != "" ==> shown == path
  {
    if path == "" then "/" else path
  }

  predicate IsFolder(e: Entry)
  {
    e.tag == FolderTag
  }

  /** The rows of the list: folders only, in listing order. */
  function ShownFolders(s: PickerState): (rows: seq<Entry>)
    ensures forall e :: e in rows <==> e in s.folderContents && e.tag == FolderTag
    ensures OrderKept(rows, s.folderContents)
  {
    var rows := Filter(s.folderContents, IsFolder);
    FilterKeepsOrder(s.folderContents, IsFolder);
    rows
  }
}

=== FILE: key_detection.dfy ===
/** Key estimation after the correlation step of `detect_key`
    (KeyFinder-Server/server.py:338-390): the 24 (score, mode, root)
    candidates, their stable descending ranking, the confidence, the
    alternatives and the relative key. The chroma features and the Pearson
    correlations themselves are computed by librosa/numpy and enter the
    model as given values. */
module KeyDetection {
  import opened Common
  import opened Music
  import Sorting

  /** One correlation coefficient as numpy returns it; `None` stands for NaN. */
  type Correlation = Option<real>

  /** NaN coefficients are replaced by 0 (server.py:359-360). */
  function Score(c: Correlation): real
  {
    match c
    case Some(v) => v
    case None => 0.0
  }

  /** A `(score, mode, root)` tuple of the candidate list. */
  datatype Candidate = Candidate(score: real, mode: Mode, root: PitchClass)

  function KeyOf(c: Candidate): Key
  {
    Key(c.root, c.mode)
  }

  /** Position of a key in the generation loop: roots ascending, and for each
      root the major candidate before the minor one. */
  function Ord(k: Key): (n: nat)
    ensures n < 24
  {
    2 * k.root + (if k.mode == Major then 0 else 1)
  }

  /** The key generated at position `i`. */
  function KeyAt(i: int): (k: Key)
    requires 0 <= i < 24
    ensures Ord(k) == i
  {
    Key(i / 2, if i % 2 == 0 then Major else Minor)
  }

  lemma KeyAtOrd(k: Key)
    ensures KeyAt(Ord(k)) == k
  {
  }

  /** The candidate list in generation order: for `i` in 0..11, the major
      then the minor profile rotated to root `i` (server.py:349-361). */
  function Candidates(corr: Key -> Correlation): (cs: seq<Candidate>)
    ensures |cs| == 24
    ensures forall i :: 0 <= i < 24 ==> Ord(KeyOf(cs[i])) == i
    ensures forall i :: 0 <= i < 24 ==> cs[i].score == Score(corr(KeyOf(cs[i])))
  {
    var cs := seq(24, i requires 0 <= i < 24 => var k := KeyAt(i); Candidate(Score(corr(k)), k.mode, k.root));
    assert forall i :: 0 <= i < 24 ==> KeyOf(cs[i]) == KeyAt(i);
    cs
  }

  /** `a` sorts strictly before `b` under `sort(key=score, reverse=True)`. */
  function ScoreAbove(a: Candidate, b: Candidate): bool
  {
    a.score > b.score
  }

  lemma ScoreAboveIsStrictWeakOrder()
    ensures Sorting.StrictWeakOrder(ScoreAbove)
  {
  }

  function OrdOf(c: Candidate): int
  {
    Ord(KeyOf(c))
  }

  /** `scores.sort(key=lambda x: x[0], reverse=True)` (server.py:364): the
      candidates in non-increasing score, equal scores keeping generation
      order because Python's sort is stable. */
  function Ranked(corr: Key -> Correlation): (r: seq<Candidate>)
    ensures |r| == 24
    ensures multiset(r) == multiset(Candidates(corr))
    ensures forall i, j :: 0 <= i < j < |r| ==> r[i].score >= r[j].score
    ensures forall i, j :: 0 <= i < j < |r| ==> Ord(KeyOf(r[i])) != Ord(KeyOf(r[j]))
    ensures forall i, j :: 0 <= i < j < |r| && r[i].score == r[j].score ==> Ord(KeyOf(r[i])) < Ord(KeyOf(r[j]))
    ensures forall i :: 0 <= i < |r| ==> r[i].score == Score(corr(KeyOf(r[i])))
  {
    var cs := Candidates(corr);
    ScoreAboveIsStrictWeakOrder();
    Sorting.SortSorted(cs, ScoreAbove);
    Sorting.SortStable(cs, ScoreAbove, OrdOf);
    var r := Sorting.Sort(cs, ScoreAbove);
    PermutationKeepsScores(corr, cs, r);
    r
  }

  lemma {:induction false} PermutationKeepsScores(corr: Key -> Correlation, cs: seq<Candidate>, r: seq<Candidate>)
    requires cs == Candidates(corr)
    requires multiset(r) == multiset(cs)
    ensures forall i :: 0 <= i < |r| ==> r[i].score == Score(corr(KeyOf(r[i])))
  {
    forall i | 0 <= i < |r|
      ensures r[i].score == Score(corr(KeyOf(r[i])))
    {
      assert r[i] in multiset(cs);
      var j :| 0 <= j < 24 && cs[j] == r[i];
    }
  }

  /** Every key has exactly one candidate in the ranking, carrying its score. */
  lemma RankedHasEveryKey(corr: Key -> Correlation, k: Key) returns (j: nat)
    ensures j < 24
    ensures KeyOf(Ranked(corr)[j]) == k
    ensures Ranked(corr)[j].score == Score(corr(k))
  {
    var cs := Candidates(corr);
    var c := cs[Ord(k)];
    assert KeyOf(c) == k by {
      KeyAtOrd(k);
      assert Ord(KeyOf(c)) == Ord(k);
    }
    assert c in multiset(Ranked(corr));
    j :| 0 <= j < 24 && Ranked(corr)[j] == c;
  }

  function Max0(x: real): real
  {
    if x < 0.0 then 0.0 else x
  }

  /** `min(100, max(0, (best - second) * 100 + 50))` with negative scores
      counted as 0 (server.py:367-370). */
  function Confidence(best: real, second: real): (r: real)
    ensures 0.0 <= r <= 100.0
    ensures second <= best ==> 50.0 <= r
    ensures r == 100.0 <==> Max0(best) - Max0(second) >= 0.5
    ensures Max0(best) == Max0(second) ==> r == 50.0
    ensures -0.5 <= Max0(best) - Max0(second) <= 0.5 ==> r == 50.0 + 100.0 * (Max0(best) - Max0(second))
    ensures Max0(best) - Max0(second) <= -0.5 ==> r == 0.0
  {
    var x := (Max0(best) - Max0(second)) * 100.0 + 50.0;
    if x > 100.0 then 100.0 else if x < 0.0 then 0.0 else x
  }

  /** A wider lead of the top score over the second never lowers the
      confidence. */
  lemma ConfidenceMonotone(best1: real, second1: real, best2: real, second2: real)
    requires Max0(best1) - Max0(second1) <= Max0(best2) - Max0(second2)
    ensures Confidence(best1, second1) <= Confidence(best2, second2)
  {
  }

  /** `[s for s in scores[1:4] if s[0] > 0.1]` (server.py:373). */
  function Alternatives(ranked: seq<Candidate>): (alts: seq<Candidate>)
    ensures |alts| <= 3
    ensures forall a :: a in alts <==> (exists j :: 1 <= j < 4 && j < |ranked| && ranked[j] == a) && a.score > 0.1
    ensures OrderKept(alts, ranked)
    ensures (forall i, j :: 0 <= i < j < |ranked| ==> KeyOf(ranked[i]) != KeyOf(ranked[j])) ==>
      forall i, j :: 0 <= i < j < |alts| ==> KeyOf(alts[i]) != KeyOf(alts[j])
  {
    var hi := if |ranked| <= 1 then 1 else if |ranked| < 4 then |ranked| else 4;
    var window := if |ranked| <= 1 then [] else ranked[1..hi];
    var keep := (c: Candidate) => c.score > 0.1;
    FilterKeepsOrder(window, keep);
    if |ranked| > 1 then
      OrderKeptInSlice(Filter(window, keep), ranked, 1, hi);
      assert (forall i, j :: 0 <= i < j < |ranked| ==> KeyOf(ranked[i]) != KeyOf(ranked[j])) ==>
        forall i, j :: 0 <= i < j < |window| ==> KeyOf(window[i]) != KeyOf(window[j]);
      FilterDistinctKeys(window, keep);
      Filter(window, keep)
    else
      Filter(window, keep)
  }

  /** Filtering candidates with pairwise different keys keeps them pairwise
      different. */
  lemma FilterDistinctKeys(window: seq<Candidate>, keep: Candidate -> bool)
    ensures (forall i, j :: 0 <= i < j < |window| ==> KeyOf(window[i]) != KeyOf(window[j])) ==>
      forall i, j :: 0 <= i < j < |Filter(window, keep)| ==> KeyOf(Filter(window, keep)[i]) != KeyOf(Filter(window, keep)[j])
  {
    if forall i, j :: 0 <= i < j < |window| ==> KeyOf(window[i]) != KeyOf(window[j]) {
      FilterKeepsPairwise(window, keep, (x: Candidate, y: Candidate) => KeyOf(x) != KeyOf(y));
    }
  }

  /** The keys of a candidate list, in order. */
  function Keys(cs: seq<Candidate>): (ks: seq<Key>)
    ensures |ks| == |cs|
    ensures forall i :: 0 <= i < |cs| ==> ks[i] == KeyOf(cs[i])
  {
    seq(|cs|, i requires 0 <= i < |cs| => KeyOf(cs[i]))
  }

  /** Taking the keys keeps the relative order of the candidates. */
  lemma {:induction false} KeysKeepOrder(cs: seq<Candidate>, ds: seq<Candidate>)
    requires OrderKept(cs, ds)
    ensures OrderKept(Keys(cs), Keys(ds))
  {
    var ks := Keys(cs);
    var kd := Keys(ds);
    forall i, j | 0 <= i < j < |ks|
      ensures InOrder(ks[i], ks[j], kd)
    {
      assert InOrder(cs[i], cs[j], ds);
      var i', j' :| 0 <= i' < j' < |ds| && cs[i] == ds[i'] && cs[j] == ds[j'];
      assert ks[i] == kd[i'] && ks[j] == kd[j'];
    }
  }

  /** The four results of `detect_key`, as keys rather than strings. */
  datatype KeyEstimate = KeyEstimate(key: Key, confidence: real, alternatives: seq<Key>, relative: Key)

  /** The normal path of `detect_key` (server.py:349-386). */
  function Estimate(corr: Key -> Correlation): (e: KeyEstimate)
    ensures forall k: Key :: Score(corr(k)) <= Score(corr(e.key))
    ensures forall k: Key :: Score(corr(k)) == Score(corr(e.key)) ==> Ord(e.key) <= Ord(k)
    ensures 50.0 <= e.confidence <= 100.0
    ensures |Ranked(corr)| == 24 && e.key == KeyOf(Ranked(corr)[0])
    ensures e.confidence == Confidence(Ranked(corr)[0].score, Ranked(corr)[1].score)
    ensures |e.alternatives| <= 3
    ensures e.key !in e.alternatives
    ensures forall a :: a in e.alternatives ==> Score(corr(a)) > 0.1
    ensures forall i, j :: 0 <= i < j < |e.alternatives| ==> Score(corr(e.alternatives[i])) >= Score(corr(e.alternatives[j]))
    ensures forall a :: a in e.alternatives <==> exists j :: 1 <= j < 4 && KeyOf(Ranked(corr)[j]) == a && Ranked(corr)[j].score > 0.1
    ensures forall i, j :: 0 <= i < j < |e.alternatives| ==> e.alternatives[i] != e.alternatives[j]
    ensures OrderKept(e.alternatives, Keys(Ranked(corr)))
    ensures e.relative == RelativeKey(e.key)
  {
    var ranked := Ranked(corr);
    var best := ranked[0];
    var alts := Alternatives(ranked);
    TopIsBest(corr);
    AlternativesFacts(corr);
    assert forall i, j :: 0 <= i < j < |ranked| ==> KeyOf(ranked[i]) != KeyOf(ranked[j]);
    KeysKeepOrder(alts, ranked);
    KeyEstimate(KeyOf(best), Confidence(ranked[0].score, ranked[1].score), Keys(alts), RelativeKey(KeyOf(best)))
  }

  /** The first ranked key has the highest score, and among keys sharing it,
      the earliest in generation order. */
  lemma TopIsBest(corr: Key -> Correlation)
    ensures forall k: Key :: Score(corr(k)) <= Score(corr(KeyOf(Ranked(corr)[0])))
    ensures forall k: Key :: Score(corr(k)) == Score(corr(KeyOf(Ranked(corr)[0]))) ==> Ord(KeyOf(Ranked(corr)[0])) <= Ord(k)
  {
    forall k: Key
      ensures Score(corr(k)) <= Score(corr(KeyOf(Ranked(corr)[0])))
      ensures Score(corr(k)) == Score(corr(KeyOf(Ranked(corr)[0]))) ==> Ord(KeyOf(Ranked(corr)[0])) <= Ord(k)
    {
      var j := RankedHasEveryKey(corr, k);
    }
  }

  /** The alternatives are the candidates ranked second to fourth scoring
      above 0.1, in ranking order, never the top key. */
  lemma AlternativesFacts(corr: Key -> Correlation)
    ensures var alts := Keys(Alternatives(Ranked(corr)));
      && KeyOf(Ranked(corr)[0]) !in alts
      && (forall a :: a in alts ==> Score(corr(a)) > 0.1)
      && (forall i, j :: 0 <= i < j < |alts| ==> Score(corr(alts[i])) >= Score(corr(alts[j])))
      && (forall a :: a in alts <==> exists j :: 1 <= j < 4 && KeyOf(Ranked(corr)[j]) == a && Ranked(corr)[j].score > 0.1)
  {
    var ranked := Ranked(corr);
    AlternativesAvoidTop(ranked);
    AlternativesOrdered(ranked);
    AlternativesExact(ranked);
  }

  lemma {:induction false} AlternativesAvoidTop(ranked: seq<Candidate>)
    requires |ranked| == 24
    requires forall i, j :: 0 <= i < j < |ranked| ==> Ord(KeyOf(ranked[i])) != Ord(KeyOf(ranked[j]))
    ensures forall a :: a in Keys(Alternatives(ranked)) ==> a != KeyOf(ranked[0]) && exists j :: 1 <= j < 4 && KeyOf(ranked[j]) == a && ranked[j].score > 0.1
  {
    var cands := Alternatives(ranked);
    forall a | a in Keys(cands)
      ensures a != KeyOf(ranked[0]) && exists j :: 1 <= j < 4 && KeyOf(ranked[j]) == a && ranked[j].score > 0.1
    {
      var i :| 0 <= i < |cands| && KeyOf(cands[i]) == a;
      assert cands[i] in cands;
      var j :| 1 <= j < 4 && ranked[j] == cands[i];
      assert Ord(KeyOf(ranked[0])) != Ord(KeyOf(ranked[j]));
    }
  }

  lemma {:induction false} AlternativesOrdered(ranked: seq<Candidate>)
    requires |ranked| == 24
    requires forall i, j :: 0 <= i < j < |ranked| ==> ranked[i].score >= ranked[j].score
    ensures forall i, j :: 0 <= i < j < |Alternatives(ranked)| ==> Alternatives(ranked)[i].score >= Alternatives(ranked)[j].score
  {
    var window := ranked[1..4];
    var keep := (c: Candidate) => c.score > 0.1;
    assert Alternatives(ranked) == Filter(window, keep);
    Common.FilterKeepsPairwise(window, keep, (x: Candidate, y: Candidate) => x.score >= y.score);
  }

  lemma {:induction false} AlternativesExact(ranked: seq<Candidate>)
    requires |ranked| == 24
    ensures forall a :: (exists j :: 1 <= j < 4 && KeyOf(ranked[j]) == a && ranked[j].score > 0.1) ==> a in Keys(Alternatives(ranked))
  {
    var cands := Alternatives(ranked);
    forall a | exists j :: 1 <= j < 4 && KeyOf(ranked[j]) == a && ranked[j].score > 0.1
      ensures a in Keys(cands)
    {
      var j :| 1 <= j < 4 && KeyOf(ranked[j]) == a && ranked[j].score > 0.1;
      assert ranked[j] in cands;
      var i :| 0 <= i < |cands| && cands[i] == ranked[j];
      assert Keys(cands)[i] == a;
    }
  }

  /** When two different keys share the top score, the confidence is 50, the
      bottom of the normal range. */
  lemma TiedTopGivesFifty(corr: Key -> Correlation, k1: Key, k2: Key)
    requires k1 != k2
    requires Score(corr(k1)) == Score(corr(k2))
    requires forall k: Key :: Score(corr(k)) <= Score(corr(k1))
    ensures Estimate(corr).confidence == 50.0
  {
    var ranked := Ranked(corr);
    var j1 := RankedHasEveryKey(corr, k1);
    var j2 := RankedHasEveryKey(corr, k2);
    var j := if j1 == 0 then j2 else j1;
    assert ranked[0].score == Score(corr(KeyOf(ranked[0])));
    assert ranked[0].score == ranked[j].score;
    assert ranked[1].score >= ranked[j].score;
  }

  /** What `detect_key` returns when librosa raises: "C Major", confidence 0,
      no alternatives, "A Minor" (server.py:388-390). */
  const Fallback: KeyEstimate := KeyEstimate(Key(0, Major), 0.0, [], Key(9, Minor))

  /** `detect_key`: `Err` stands for an exception raised while computing the
      chroma features or the correlations. */
  function DetectKey(corr: Result<Key -> Correlation>): (e: KeyEstimate)
    ensures e.relative == RelativeKey(e.key)
    ensures corr.Err? ==> e == Fallback
    ensures corr.Ok? ==> 50.0 <= e.confidence <= 100.0
    ensures corr.Ok? ==> forall k: Key :: Score(corr.value(k)) <= Score(corr.value(e.key))
    ensures corr.Ok? ==> e == Estimate(corr.value)
  {
    match corr
    case Ok(c) => Estimate(c)
    case Err(_) => Fallback
  }

  /** The fallback's two keys are relative keys of each other. */
  lemma FallbackIsRelativePair()
    ensures RelativeKey(Fallback.key) == Fallback.relative
    ensures RelativeKey(Fallback.relative) == Fallback.key
  {
  }
}

=== FILE: key_wheel.dfy ===
/** The circle-of-fifths key picker (KeyFinder-App/KeyWheel.js:12-65): an
    outer ring of major keys and an inner ring of minor keys, twelve
    buttons each, whose presses report and highlight a `"<Note> <Mode>"`
    key name. Positions on screen (trigonometry) are not modelled; the
    angle each button carries is. */
module KeyWheel {
  import opened Strings
  import opened Music

  /** One button: the note name it shows and its angle in degrees. */
  datatype WheelKey = WheelKey(name: string, angle: int)

  /** `majorKeys`: the outer ring, clockwise from the top. */
  const MajorRing: seq<WheelKey> := [
    WheelKey("C", 0),
    WheelKey("G", 30),
    WheelKey("D", 60),
    WheelKey("A", 90),
    WheelKey("E", 120),
    WheelKey("B", 150),
    WheelKey("F#", 180),
    WheelKey("C#", 210),
    WheelKey("G#", 240),
    WheelKey("D#", 270),
    WheelKey("A#", 300),
    WheelKey("F", 330)
  ]

  /** `minorKeys`: the inner ring, clockwise from the top. */
  const MinorRing: seq<WheelKey> := [
    WheelKey("A", 0),
    WheelKey("E", 30),
    WheelKey("B", 60),
    WheelKey("F#", 90),
    WheelKey("C#", 120),
    WheelKey("G#", 150),
    WheelKey("D#", 180),
    WheelKey("A#", 210),
    WheelKey("F", 240),
    WheelKey("C", 270),
    WheelKey("G", 300),
    WheelKey("D", 330)
  ]

  function Ring(m: Mode): seq<WheelKey>
  {
    if m == Major then MajorRing else MinorRing
  }

  /** `${keyName} ${mode}`, the name built by both handlers. */
  function FullKeyName(keyName: string, mode: Mode): string
  {
    keyName + " " + ModeName(mode)
  }

  /** `handleKeyPress`: the key name handed to `onKeyChange`. */
  function HandleKeyPress(keyName: string, mode: Mode): (chosen: string)
    ensures ' ' !in keyName ==> Split(chosen, ' ') == [keyName, ModeName(mode)]
  {
    var chosen := FullKeyName(keyName, mode);
    assert chosen == keyName + [' '] + ModeName(mode);
    assert ' ' !in ModeName(mode);
    if ' ' in keyName then chosen
    else
      SplitPair(keyName, ModeName(mode), ' ');
      chosen
  }

  /** `isSelected`: the button shows as selected when its full name is the
      current key. */
  predicate IsSelected(selectedKey: string, keyName: string, mode: Mode)
  {
    selectedKey == FullKeyName(keyName, mode)
  }

  /** Ring position of a major root: seven semitones (a fifth) per step,
      so the position of root `r` is `7 * r mod 12`. */
  const RingIndexOfRoot: seq<int> := [0, 7, 2, 9, 4, 11, 6, 1, 8, 3, 10, 5]

  /** The major root at ring position `i`: `i` fifths above C. */
  function RingRoot(i: int): (p: PitchClass)
    requires 0 <= i < 12
  {
    (7 * i) % 12
  }

  /** The key a button stands for. */
  function WheelKeyAt(m: Mode, i: int): Key
    requires 0 <= i < 12
  {
    if m == Major then Key(RingRoot(i), Major) else RelativeKey(Key(RingRoot(i), Major))
  }

  /** Each button shows the note of the key it stands for, at `30 * i`
      degrees: the outer ring walks up by fifths from C, and the inner ring
      holds the relative minor of the major key beside it. */
  lemma {:induction false} RingLayout(m: Mode, i: int)
    requires 0 <= i < 12
    ensures |Ring(m)| == 12
    ensures Ring(m)[i].name == NoteName(WheelKeyAt(m, i).root)
    ensures Ring(m)[i].angle == 30 * i
    ensures WheelKeyAt(m, i).mode == m
    ensures FullKeyName(Ring(m)[i].name, m) == KeyName(WheelKeyAt(m, i))
  {
    if m == Major {
      MajorLayout(i);
    } else {
      MinorLayout(i);
    }
  }

  lemma MajorLayout(i: int)
    requires 0 <= i < 12
    ensures MajorRing[i].name == NoteName(RingRoot(i)) && MajorRing[i].angle == 30 * i
  {
    if i < 6 {
      if i == 0 {} else if i == 1 {} else if i == 2 {} else if i == 3 {} else if i == 4 {} else {}
    } else {
      if i == 6 {} else if i == 7 {} else if i == 8 {} else if i == 9 {} else if i == 10 {} else {}
    }
  }

  lemma MinorLayout(i: int)
    requires 0 <= i < 12
    ensures MinorRing[i].name == NoteName(Transpose(RingRoot(i), 9)) && MinorRing[i].angle == 30 * i
  {
    if i < 6 { MinorLayoutLow(i); } else { MinorLayoutHigh(i); }
  }

  lemma MinorLayoutLow(i: int)
    requires 0 <= i < 6
    ensures MinorRing[i].name == NoteName(Transpose(RingRoot(i), 9)) && MinorRing[i].angle == 30 * i
  {
    if i == 0 {} else if i == 1 {} else if i == 2 {} else if i == 3 {} else if i == 4 {} else {}
  }

  lemma MinorLayoutHigh(i: int)
    requires 6 <= i < 12
    ensures MinorRing[i].name == NoteName(Transpose(RingRoot(i), 9)) && MinorRing[i].angle == 30 * i
  {
    if i == 6 {} else if i == 7 {} else if i == 8 {} else if i == 9 {} else if i == 10 {} else {}
  }

  /** Neighbouring outer buttons are a fifth apart, all the way round. */
  lemma RingFollowsFifths(i: int)
    requires 0 <= i < 12
    ensures RingRoot(if i == 11 then 0 else i + 1) == Transpose(RingRoot(i), 7)
  {
  }

  /** `RingIndexOfRoot` inverts `RingRoot`. */
  lemma RingIndexInverts(p: PitchClass)
    ensures 0 <= RingIndexOfRoot[p] < 12 && RingRoot(RingIndexOfRoot[p]) == p
  {
    if p < 6 {
      if p == 0 {} else if p == 1 {} else if p == 2 {} else if p == 3 {} else if p == 4 {} else {}
    } else {
      if p == 6 {} else if p == 7 {} else if p == 8 {} else if p == 9 {} else if p == 10 {} else {}
    }
  }

  /** Every one of the 24 keys has a button. */
  lemma {:induction false} WheelCoversEveryKey(k: Key) returns (i: int)
    ensures 0 <= i < 12
    ensures WheelKeyAt(k.mode, i) == k
    ensures HandleKeyPress(Ring(k.mode)[i].name, k.mode) == KeyName(k)
  {
    var major := if k.mode == Major then k else RelativeKey(k);
    RingIndexInverts(major.root);
    i := RingIndexOfRoot[major.root];
    RelativeKeyInvolution(k);
    RingLayout(k.mode, i);
  }

  /** `RingRoot` is one-to-one: its position can be read back. */
  lemma RingPositionOfRoot(i: int)
    requires 0 <= i < 12
    ensures RingIndexOfRoot[RingRoot(i)] == i
  {
    if i < 6 {
      if i == 0 {} else if i == 1 {} else if i == 2 {} else if i == 3 {} else if i == 4 {} else {}
    } else {
      if i == 6 {} else if i == 7 {} else if i == 8 {} else if i == 9 {} else if i == 10 {} else {}
    }
  }

  /** The mode and root of the key a button stands for. */
  lemma WheelKeyAtParts(m: Mode, i: int)
    requires 0 <= i < 12
    ensures WheelKeyAt(m, i).mode == m
    ensures WheelKeyAt(m, i).root == if m == Major then RingRoot(i) else Transpose(RingRoot(i), 9)
  {
  }

  lemma TransposeCancels(a: PitchClass, b: PitchClass, n: int)
    requires Transpose(a, n) == Transpose(b, n)
    ensures a == b
  {
  }

  /** Different buttons stand for different keys. */
  lemma {:induction false} WheelKeyAtInjective(m1: Mode, i: int, m2: Mode, j: int)
    requires 0 <= i < 12 && 0 <= j < 12
    requires WheelKeyAt(m1, i) == WheelKeyAt(m2, j)
    ensures m1 == m2 && i == j
  {
    WheelKeyAtParts(m1, i);
    WheelKeyAtParts(m2, j);
    if m1 == Minor && m2 == Minor {
      TransposeCancels(RingRoot(i), RingRoot(j), 9);
    }
    RingPositionOfRoot(i);
    RingPositionOfRoot(j);
  }

  /** Pressing a button selects that button and no other, on either
      ring. */
  lemma {:induction false} PressSelectsExactlyThatKey(m1: Mode, i: int, m2: Mode, j: int)
    requires 0 <= i < 12 && 0 <= j < 12
    ensures IsSelected(HandleKeyPress(Ring(m1)[i].name, m1), Ring(m2)[j].name, m2) <==> m1 == m2 && i == j
  {
    RingLayout(m1, i);
    RingLayout(m2, j);
    if KeyName(WheelKeyAt(m1, i)) == KeyName(WheelKeyAt(m2, j)) {
      KeyNameInjective(WheelKeyAt(m1, i), WheelKeyAt(m2, j));
      WheelKeyAtInjective(m1, i, m2, j);
    }
  }
}

=== FILE: music.dfy ===
/** The music-theory vocabulary shared by the server and the client: pitch
    classes, keys, and the `"<Note> <Mode>"` key-name format with sharps-only
    note names (KeyFinder-Server/server.py:66, KeyFinder-App/App.js:42). */
module Music {
  import opened Strings

  /** A pitch class, 0 = C up to 11 = B. */
  type PitchClass = n: int | 0 <= n < 12

  datatype Mode = Major | Minor

  datatype Key = Key(root: PitchClass, mode: Mode)

  /** `NOTE_NAMES` / `NOTES`: sharps only. */
  const NoteNames: seq<string> := ["C", "C#", "D", "D#", "E", "F", "F#", "G", "G#", "A", "A#", "B"]

  function NoteName(p: PitchClass): string
  {
    NoteNames[p]
  }

  function ModeName(m: Mode): string
  {
    match m
    case Major => "Major"
    case Minor => "Minor"
  }

  /** The key string exchanged between server and client, e.g. `"A# Minor"`. */
  function KeyName(k: Key): string
  {
    NoteName(k.root) + " " + ModeName(k.mode)
  }

  /** `p` moved up by `n` semitones, modulo the octave. */
  function Transpose(p: PitchClass, n: int): PitchClass
  {
    (p + n) % 12
  }

  /** `MAJOR_SCALE_INTERVALS` and `MINOR_SCALE_INTERVALS` (App.js:43-44). */
  const MajorIntervals: seq<int> := [0, 2, 4, 5, 7, 9, 11]
  const MinorIntervals: seq<int> := [0, 2, 3, 5, 7, 8, 10]

  function Intervals(m: Mode): seq<int>
  {
    if m == Major then MajorIntervals else MinorIntervals
  }

  /** The upward interval from `from` to `to`, in semitones. */
  function Distance(from: PitchClass, to: PitchClass): (d: nat)
    ensures d < 12
    ensures Transpose(from, d) == to
  {
    if from <= to then to - from else to - from + 12
  }

  /** Pitch class `p` belongs to the scale of key `k`. */
  predicate InScale(k: Key, p: PitchClass)
  {
    Distance(k.root, p) in Intervals(k.mode)
  }

  /** The relative key: the other mode on the same key signature. A major
      root moves up nine semitones, a minor root up three
      (KeyFinder-Server/server.py:378-384). */
  function RelativeKey(k: Key): (r: Key)
    ensures r.mode != k.mode
    ensures forall p: PitchClass :: InScale(r, p) <==> InScale(k, p)
  {
    var r := if k.mode == Major then Key(Transpose(k.root, 9), Minor) else Key(Transpose(k.root, 3), Major);
    RelativeSharesScale(k, r);
    r
  }

  /** Moving a major scale's degrees down a minor third lands exactly on the
      natural-minor degrees. */
  lemma MajorDegreesAsMinor(d: int)
    requires 0 <= d < 12
    ensures d in MajorIntervals <==> (if d < 9 then d + 3 else d - 9) in MinorIntervals
  {
    if d == 0 {} else if d == 1 {} else if d == 2 {} else if d == 3 {} else if d == 4 {} else if d == 5 {}
    else if d == 6 {} else if d == 7 {} else if d == 8 {} else if d == 9 {} else if d == 10 {} else {}
  }

  lemma RelativeSharesScale(k: Key, r: Key)
    requires r == (if k.mode == Major then Key(Transpose(k.root, 9), Minor) else Key(Transpose(k.root, 3), Major))
    ensures forall p: PitchClass :: InScale(r, p) <==> InScale(k, p)
  {
    forall p: PitchClass
      ensures InScale(r, p) <==> InScale(k, p)
    {
      if k.mode == Major {
        MinorThirdBelow(k.root, r.root, p);
      } else {
        MinorThirdBelow(r.root, k.root, p);
      }
    }
  }

  /** For a major root and the minor root nine semitones above it, every
      pitch class is a degree of both scales or of neither. */
  lemma MinorThirdBelow(major: PitchClass, minor: PitchClass, p: PitchClass)
    requires minor == Transpose(major, 9)
    ensures Distance(minor, p) in MinorIntervals <==> Distance(major, p) in MajorIntervals
  {
    var d := Distance(major, p);
    assert Distance(minor, p) == if d < 9 then d + 3 else d - 9;
    MajorDegreesAsMinor(d);
  }

  /** A scale degree `w` of mode `m` that is not a degree once the scale is
      shifted up by `d` semitones (witnessing that no scale is a rotation of
      itself). */
  function RotationWitness(m: Mode, d: int): int
    requires 1 <= d < 12
  {
    if m == Major then [0, 2, 0, 4, 0, 11, 0, 5, 2, 0, 4, 0][d]
    else [0, 0, 3, 0, 3, 2, 0, 8, 0, 3, 2, 0][d]
  }

  lemma RotationWitnessCorrect(m: Mode, d: int)
    requires 1 <= d < 12
    ensures 0 <= RotationWitness(m, d) < 12
    ensures RotationWitness(m, d) in Intervals(m)
    ensures (if RotationWitness(m, d) >= d then RotationWitness(m, d) - d else RotationWitness(m, d) - d + 12) !in Intervals(m)
  {
    if d == 1 {} else if d == 2 {} else if d == 3 {} else if d == 4 {} else if d == 5 {} else if d == 6 {}
    else if d == 7 {} else if d == 8 {} else if d == 9 {} else if d == 10 {} else {}
  }

  /** Two keys of one mode with the same scale have the same root: no scale
      is a rotation of itself. */
  lemma SameScaleSameRoot(a: PitchClass, b: PitchClass, m: Mode)
    requires forall p: PitchClass :: InScale(Key(a, m), p) <==> InScale(Key(b, m), p)
    ensures a == b
  {
    if a != b {
      var p := RotationBreaks(a, b, m);
    }
  }

  /** For two different roots, a degree of the first scale that is not a
      degree of the second. */
  lemma RotationBreaks(a: PitchClass, b: PitchClass, m: Mode) returns (p: PitchClass)
    requires a != b
    ensures InScale(Key(a, m), p) && !InScale(Key(b, m), p)
  {
    var d := Distance(a, b);
    RotationWitnessCorrect(m, d);
    var w := RotationWitness(m, d);
    p := Transpose(a, w);
    assert Distance(a, p) == w;
    assert Distance(b, p) as int == if w >= d then w - d else w - d + 12;
  }

  /** The relative key is the only key of the other mode with the same
      scale. */
  lemma {:induction false} RelativeKeyUnique(k: Key, k': Key)
    requires k'.mode != k.mode
    requires forall p: PitchClass :: InScale(k', p) <==> InScale(k, p)
    ensures k' == RelativeKey(k)
  {
    var r := RelativeKey(k);
    assert r.mode == k'.mode;
    SameScaleSameRoot(k'.root, r.root, k'.mode);
  }

  /** Taking the relative key twice returns the original key. */
  lemma {:induction false} RelativeKeyInvolution(k: Key)
    ensures RelativeKey(RelativeKey(k)) == k
  {
    var r := RelativeKey(k);
    RelativeKeyUnique(r, k);
  }

  lemma NoteNamesDistinct()
    ensures forall i, j :: 0 <= i < j < 12 ==> NoteNames[i] != NoteNames[j]
    ensures forall i :: 0 <= i < 12 ==> ' ' !in NoteNames[i]
  {
  }

  /** A key name splits on its single space into the note name and the mode
      name. */
  lemma KeyNameParts(k: Key)
    ensures Split(KeyName(k), ' ') == [NoteName(k.root), ModeName(k.mode)]
  {
    NoteNamesDistinct();
    assert KeyName(k) == NoteName(k.root) + [' '] + ModeName(k.mode);
    SplitPair(NoteName(k.root), ModeName(k.mode), ' ');
  }

  /** Distinct keys have distinct names. */
  lemma KeyNameInjective(k1: Key, k2: Key)
    requires KeyName(k1) == KeyName(k2)
    ensures k1 == k2
  {
    KeyNameParts(k1);
    KeyNameParts(k2);
    NoteNamesDistinct();
    assert NoteNames[k1.root] == NoteNames[k2.root];
  }
}

=== FILE: recognition.dfy ===
/** Song identification (`identify_song_acrcloud`,
    KeyFinder-Server/server.py:509-537): the reply of the recognition
    service, already decoded from JSON, is reduced to a flat song record.
    Reading the file and the network round trip are the caller's business:
    the reply arrives as a `Result`, with `Err` standing for any exception
    raised on the way. */
module Recognition {
  import opened Common
  import opened Strings

  /** One entry of `artists`; `name` is `None` when the key is absent. */
  datatype ArtistRef = ArtistRef(name: Option<string>)

  datatype Album = Album(name: Option<string>, coverArtUrl: Option<string>)

  /** One entry of `external_metadata.spotify`, reduced to
      `external_ids.spotify`. */
  datatype SpotifyRef = SpotifyRef(spotifyId: Option<string>)

  /** One entry of `metadata.music`; absent lists are empty, an absent
      `album` is `None`. */
  datatype Track = Track(
    title: Option<string>,
    artists: seq<ArtistRef>,
    album: Option<Album>,
    releaseDate: Option<string>,
    spotify: seq<SpotifyRef>)

  /** The decoded reply: `status.code` and `metadata.music`. */
  datatype AcrReply = AcrReply(statusCode: Option<int>, music: seq<Track>)

  /** The three shapes of the returned dictionary: `status` is `success`,
      `not_found` or `error`. */
  datatype SongInfo =
    | Success(
        title: Option<string>,
        artist: string,
        album: Option<string>,
        releaseDate: Option<string>,
        spotifyUrl: Option<string>,
        coverArtUrl: Option<string>)
    | NotFound
    | LookupError(message: string)

  /** `a.get('name', '')` for each artist. */
  function ArtistNames(artists: seq<ArtistRef>): (names: seq<string>)
    ensures |names| == |artists|
    ensures forall i :: 0 <= i < |artists| ==> names[i] == (if artists[i].name.Some? then artists[i].name.value else "")
  {
    seq(|artists|, i requires 0 <= i < |artists| => if artists[i].name.Some? then artists[i].name.value else "")
  }

  /** The first entry's Spotify id, or `None` when there is no entry
      (`next(..., None)`). */
  function FirstSpotifyId(refs: seq<SpotifyRef>): Option<string>
  {
    if |refs| == 0 then None else refs[0].spotifyId
  }

  function AlbumName(album: Option<Album>): Option<string>
  {
    if album.Some? then album.value.name else None
  }

  function AlbumCover(album: Option<Album>): Option<string>
  {
    if album.Some? then album.value.coverArtUrl else None
  }

  /** Only a reply with status code 0 and at least one match is a success,
      and the record then describes the first (best) match. */
  function IdentifySong(reply: Result<AcrReply>): (info: SongInfo)
    ensures info.LookupError? <==> reply.Err?
    ensures reply.Err? ==> info.message == reply.message
    ensures info.Success? <==> reply.Ok? && reply.value.statusCode == Some(0) && |reply.value.music| > 0
    ensures info.Success? ==> info.title == reply.value.music[0].title
    ensures info.Success? ==> info.releaseDate == reply.value.music[0].releaseDate
    ensures info.Success? && reply.value.music[0].album.None? ==> info.album == None && info.coverArtUrl == None
    ensures info.Success? && reply.value.music[0].album.Some? ==>
      info.album == reply.value.music[0].album.value.name && info.coverArtUrl == reply.value.music[0].album.value.coverArtUrl
    ensures info.Success? && reply.value.music[0].spotify != [] ==> info.spotifyUrl == reply.value.music[0].spotify[0].spotifyId
    ensures info.Success? && reply.value.music[0].spotify == [] ==> info.spotifyUrl == None
    ensures info.Success? && reply.value.music[0].artists == [] ==> info.artist == ""
  {
    match reply
    case Err(e) => LookupError(e)
    case Ok(r) =>
      if r.statusCode == Some(0) && |r.music| > 0 then
        var track := r.music[0];
        Success(
          track.title,
          Join(ArtistNames(track.artists), ", "),
          AlbumName(track.album),
          track.releaseDate,
          FirstSpotifyId(track.spotify),
          AlbumCover(track.album))
      else NotFound
  }

  /** Each name after the first, preceded by the blank that follows every
      comma of the joined artist string. */
  function Indented(names: seq<string>): (r: seq<string>)
    ensures |r| == |names|
    ensures forall i :: 0 <= i < |names| ==> r[i] == " " + names[i]
  {
    seq(|names|, i requires 0 <= i < |names| => " " + names[i])
  }

  lemma {:induction false} JoinLeadingBlank(x: string, rest: seq<string>, sep: string)
    ensures Join([" " + x] + rest, sep) == " " + Join([x] + rest, sep)
  {
    if |rest| > 0 {
      assert ([" " + x] + rest)[1..] == rest;
      assert ([x] + rest)[1..] == rest;
    }
  }

  /** Joining with `", "` is joining with `","` after indenting every name
      but the first. */
  lemma {:induction false} JoinCommaBlank(names: seq<string>)
    requires |names| >= 1
    ensures Join(names, ", ") == Join([names[0]] + Indented(names[1..]), ",")
    decreases |names|
  {
    if |names| > 1 {
      var tail := names[1..];
      JoinCommaBlank(tail);
      assert tail[1..] == names[2..];
      assert Indented(tail) == [" " + tail[0]] + Indented(tail[1..]);
      JoinLeadingBlank(tail[0], Indented(tail[1..]), ",");
      assert ([names[0]] + Indented(tail))[1..] == Indented(tail);
    }
  }

  /** The artist list can be read back from a successful record: as long as
      no artist name contains a comma, splitting the joined string at its
      commas yields one piece per artist, the first name and then each
      further name behind its blank. */
  lemma {:induction false} ArtistListRecoverable(reply: Result<AcrReply>)
    requires IdentifySong(reply).Success?
    requires |reply.value.music[0].artists| >= 1
    requires forall a :: a in reply.value.music[0].artists && a.name.Some? ==> ',' !in a.name.value
    ensures var names := ArtistNames(reply.value.music[0].artists);
      Split(IdentifySong(reply).artist, ',') == [names[0]] + Indented(names[1..])
  {
    var artists := reply.value.music[0].artists;
    var names := ArtistNames(artists);
    var pieces := [names[0]] + Indented(names[1..]);
    JoinCommaBlank(names);
    forall i | 0 <= i < |pieces|
      ensures ',' !in pieces[i]
    {
      assert artists[i] in artists;
      if i > 0 {
        assert pieces[i] == " " + names[i];
      }
    }
    SplitJoin(pieces, ',');
  }
}

=== FILE: rounding.dfy ===
/** Rounding of exact reals as numpy's `np.round` and Python's `round` do it:
    to the nearest integer, with halves going to the even neighbour. */
module Rounding {

  function Abs(x: real): real
  {
    if x < 0.0 then -x else x
  }

  /** The distance from integer `n` to `x`. */
  function Gap(n: int, x: real): real
  {
    Abs(n as real - x)
  }

  /** Round half to even (`np.round(x)`, `round(x)`). */
  function RoundHalfEven(x: real): (r: int)
    ensures Gap(r, x) <= 0.5
    ensures Gap(r, x) == 0.5 ==> r % 2 == 0
  {
    var f := x.Floor;
    var frac := x - f as real;
    if frac < 0.5 then f
    else if frac > 0.5 then f + 1
    else if f % 2 == 0 then f
    else f + 1
  }

  /** No integer is closer to `x` than the rounded value, and only a tie can
      be as close. */
  lemma RoundHalfEvenNearest(x: real, n: int)
    ensures Gap(RoundHalfEven(x), x) <= Gap(n, x)
    ensures n != RoundHalfEven(x) && Gap(n, x) == Gap(RoundHalfEven(x), x) ==> Gap(n, x) == 0.5 && n % 2 != 0
  {
  }

  /** The rounded value is an integer nearest to `x`: no integer is closer. */
  lemma RoundHalfEvenIsNearest(x: real)
    ensures forall n: int :: Gap(RoundHalfEven(x), x) <= Gap(n, x)
  {
    forall n: int
      ensures Gap(RoundHalfEven(x), x) <= Gap(n, x)
    {
      RoundHalfEvenNearest(x, n);
    }
  }

  /** `round(x, 1)`: to the nearest tenth, halves to an even last digit. */
  function RoundTenths(x: real): (r: real)
    ensures (r * 10.0).Floor as real == r * 10.0
    ensures Abs(r - x) <= 0.05
    ensures Abs(r - x) == 0.05 ==> (r * 10.0).Floor % 2 == 0
  {
    var n := RoundHalfEven(x * 10.0);
    TenthsScale(n, x);
    n as real / 10.0
  }

  /** `n` tenths, read back in tenths, are the integer `n`, and their
      distance to `x` is a tenth of the distance from `n` to `10x`. */
  lemma TenthsScale(n: int, x: real)
    ensures (n as real / 10.0 * 10.0).Floor == n
    ensures Abs(n as real / 10.0 - x) * 10.0 == Gap(n, x * 10.0)
  {
    var r := n as real / 10.0;
    assert r * 10.0 == n as real;
    assert (r - x) * 10.0 == n as real - x * 10.0;
  }

  /** Rounding to tenths keeps a value inside any interval whose ends are
      whole tenths. */
  lemma RoundTenthsWithin(x: real, lo: int, hi: int)
    requires lo as real / 10.0 <= x <= hi as real / 10.0
    ensures lo as real / 10.0 <= RoundTenths(x) <= hi as real / 10.0
  {
    var n := RoundHalfEven(x * 10.0);
    assert lo as real <= x * 10.0 <= hi as real;
    assert lo <= n <= hi;
  }
}

=== FILE: scales.dfy ===
/** The scale shown on the on-screen keyboard (`getScaleNotes`,
    KeyFinder-App/App.js:40-52): the seven note names of the detected key's
    major or natural-minor scale, starting at the root. */
module Scales {
  import opened Common
  import opened Strings
  import opened Music

  /** The mode the keyboard uses: `Major` exactly when the second word is
      `Major`, the minor scale for anything else, a missing word included. */
  function ModeWord(parts: seq<string>): (m: Mode)
    ensures m == Major <==> |parts| > 1 && parts[1] == "Major"
  {
    if |parts| > 1 && parts[1] == "Major" then Major else Minor
  }

  /** `getScaleNotes` for the key string `detectedKey`. */
  function ScaleNotes(detectedKey: string): (notes: seq<string>)
    ensures IndexOf(NoteNames, Split(detectedKey, ' ')[0]) == -1 <==> notes == []
    ensures notes != [] ==> |notes| == 7 && notes[0] == Split(detectedKey, ' ')[0]
    ensures forall i, j :: 0 <= i < j < |notes| ==> notes[i] != notes[j]
    ensures forall n :: n in notes ==> n in NoteNames
  {
    var parts := Split(detectedKey, ' ');
    var rootIndex := IndexOf(NoteNames, parts[0]);
    if rootIndex == -1 then []
    else
      NotesFrom(rootIndex, ModeWord(parts))
  }

  /** The names of the scale degrees of `mode` above `root`. */
  function NotesFrom(root: PitchClass, mode: Mode): (notes: seq<string>)
    ensures |notes| == 7
    ensures notes[0] == NoteName(root)
    ensures forall i :: 0 <= i < 7 ==> notes[i] == NoteName(Transpose(root, Intervals(mode)[i]))
    ensures forall i, j :: 0 <= i < j < 7 ==> notes[i] != notes[j]
    ensures forall n :: n in notes ==> n in NoteNames
  {
    var notes := seq(7, i requires 0 <= i < 7 => NoteName(Transpose(root, Intervals(mode)[i])));
    forall i, j | 0 <= i < j < 7
      ensures notes[i] != notes[j]
    {
      TransposeInjective(root, Intervals(mode)[i], Intervals(mode)[j]);
      NoteNamesDistinct();
    }
    assert Intervals(mode)[0] == 0;
    notes
  }

  /** Within one octave, different steps up from a root land on different
      pitch classes. */
  lemma TransposeInjective(root: PitchClass, a: int, b: int)
    requires 0 <= a < 12 && 0 <= b < 12 && a != b
    ensures Transpose(root, a) != Transpose(root, b)
  {
  }

  /** A key's name gives the notes of its own scale. */
  lemma {:induction false} ScaleNotesOfKeyName(k: Key)
    ensures ScaleNotes(KeyName(k)) == NotesFrom(k.root, k.mode)
  {
    KeyNameParts(k);
    NoteNamesDistinct();
    var parts := Split(KeyName(k), ' ');
    assert IndexOf(NoteNames, parts[0]) == k.root;
    assert ModeWord(parts) == k.mode;
  }

  /** The notes listed from a root are those of the scale on that root. */
  lemma {:induction false} NotesFromMatchScale(root: PitchClass, mode: Mode, p: PitchClass)
    ensures NoteName(p) in NotesFrom(root, mode) <==> InScale(Key(root, mode), p)
  {
    NoteNamesDistinct();
    var notes := NotesFrom(root, mode);
    var ivs := Intervals(mode);
    var d := Distance(root, p);
    if d in ivs {
      var i :| 0 <= i < 7 && ivs[i] == d;
      assert notes[i] == NoteName(p);
    }
    if NoteName(p) in notes {
      var i :| 0 <= i < 7 && notes[i] == NoteName(p);
      var q := Transpose(root, ivs[i]);
      assert NoteNames[q] == NoteNames[p];
      assert q == p;
      if ivs[i] != d {
        TransposeInjective(root, ivs[i], d);
      }
    }
  }

  /** The keyboard lights up exactly the notes of the key's scale. */
  lemma {:induction false} ScaleNotesMatchScale(k: Key, p: PitchClass)
    ensures NoteName(p) in ScaleNotes(KeyName(k)) <==> InScale(k, p)
  {
    ScaleNotesOfKeyName(k);
    NotesFromMatchScale(k.root, k.mode, p);
  }

  /** A key and its relative key light up the same notes. */
  lemma RelativeKeySameNotes(k: Key, p: PitchClass)
    ensures NoteName(p) in ScaleNotes(KeyName(k)) <==> NoteName(p) in ScaleNotes(KeyName(RelativeKey(k)))
  {
    ScaleNotesMatchScale(k, p);
    ScaleNotesMatchScale(RelativeKey(k), p);
  }

  /** Any second word other than `Major` gives the minor scale. */
  lemma {:induction false} OtherModeWordIsMinor(root: PitchClass, word: string)
    requires word != "Major" && ' ' !in word
    ensures ScaleNotes(NoteName(root) + " " + word) == ScaleNotes(KeyName(Key(root, Minor)))
  {
    NoteNamesDistinct();
    SplitPair(NoteName(root), word, ' ');
    assert NoteName(root) + " " + word == NoteName(root) + [' '] + word;
    KeyNameParts(Key(root, Minor));
  }

  /** A key string whose first word is not a sharps-only note name (a flat
      such as `Bb`, say) lights up nothing. */
  lemma {:induction false} NonNoteRootGivesNothing(word: string, rest: string)
    requires ' ' !in word && word !in NoteNames
    ensures ScaleNotes(word + " " + rest) == []
  {
    SplitAfterPiece(word, rest, ' ');
    assert word + " " + rest == word + [' '] + rest;
  }
}

=== FILE: song_search.dfy ===
/** Song search by key (KeyFinder-Server/server.py:71-100, 562-579 and
    the `/search_by_key` handler at 656-674): the curated table's songs for
    one key, optionally narrowed to a genre, most popular first, cut to a
    limit. */
module SongSearch {
  import opened Common
  import opened Strings
  import opened Sorting

  datatype Song = Song(title: string, artist: string, bpm: int, genre: string, popularity: int)

  /** `CURATED_SONGS_BY_KEY`, in source order. */
  const CuratedSongsByKey: map<string, seq<Song>> :=
    map[
      "A Minor" := [
        Song("Sicko Mode", "Travis Scott", 155, "Hip-Hop", 95),
        Song("God's Plan", "Drake", 77, "Hip-Hop", 98),
        Song("HUMBLE.", "Kendrick Lamar", 150, "Hip-Hop", 92),
        Song("Bad Guy", "Billie Eilish", 135, "Pop", 90)
      ],
      "D Minor" := [
        Song("Hotline Bling", "Drake", 135, "Hip-Hop", 94),
        Song("Congratulations", "Post Malone", 123, "Hip-Hop", 89),
        Song("Somebody That I Used to Know", "Gotye", 129, "Pop", 85)
      ],
      "E Minor" := [
        Song("Rockstar", "Post Malone ft. 21 Savage", 160, "Hip-Hop", 96),
        Song("Lucid Dreams", "Juice WRLD", 84, "Hip-Hop", 93),
        Song("Lose Yourself", "Eminem", 86, "Hip-Hop", 97)
      ],
      "C Major" := [
        Song("Old Town Road", "Lil Nas X ft. Billy Ray Cyrus", 136, "Hip-Hop", 99),
        Song("Sunflower", "Post Malone & Swae Lee", 90, "Hip-Hop", 91),
        Song("Perfect", "Ed Sheeran", 95, "Pop", 88)
      ],
      "G Major" := [
        Song("Circles", "Post Malone", 120, "Hip-Hop", 87),
        Song("The Box", "Roddy Ricch", 83, "Hip-Hop", 95),
        Song("Shape of You", "Ed Sheeran", 96, "Pop", 94)
      ]
    ]

  /** `dict.get(key, [])`. */
  function SongsFor(catalogue: map<string, seq<Song>>, key: string): seq<Song>
  {
    if key in catalogue then catalogue[key] else []
  }

  /** A genre narrows the search unless it is empty or, ignoring case,
      `all`. */
  predicate GenreFilterActive(genre: string)
  {
    genre != "" && Lower(genre) != "all"
  }

  /** The genre test: the requested genre occurs in the song's genre,
      ignoring case. */
  predicate GenreMatches(genre: string, s: Song)
  {
    Contains(Lower(s.genre), Lower(genre))
  }

  /** The songs of `key` that pass the genre filter, in table order. */
  function Matching(catalogue: map<string, seq<Song>>, key: string, genre: string): (songs: seq<Song>)
    ensures forall s :: s in songs <==> s in SongsFor(catalogue, key) && (GenreFilterActive(genre) ==> GenreMatches(genre, s))
  {
    if GenreFilterActive(genre) then Filter(SongsFor(catalogue, key), s => GenreMatches(genre, s))
    else SongsFor(catalogue, key)
  }

  /** Order for `sort(key=popularity, reverse=True)`: higher popularity
      first, equal popularity in table order. */
  function MorePopular(a: Song, b: Song): bool
  {
    a.popularity > b.popularity
  }

  lemma MorePopularIsStrictWeakOrder()
    ensures StrictWeakOrder(MorePopular)
  {
  }

  /** Python's `s[:n]`: a negative `n` counts from the end. */
  function PyTake<T>(s: seq<T>, n: int): (r: seq<T>)
    ensures |r| <= |s| && r == s[..|r|]
    ensures 0 <= n <= |s| ==> r == s[..n]
    ensures |s| <= n ==> r == s
    ensures n < 0 && -n <= |s| ==> r == s[..|s| + n]
    ensures n < 0 && |s| < -n ==> r == []
  {
    if n >= 0 then (if n <= |s| then s[..n] else s)
    else if -n <= |s| then s[..|s| + n]
    else []
  }

  /** `get_songs_by_key_and_genre` (with no database configured): the
      matching songs, most popular first and ties in table order, cut by
      Python's `songs[:limit]`. */
  function SongsByKeyAndGenre(catalogue: map<string, seq<Song>>, key: string, genre: string, limit: int): (r: seq<Song>)
    ensures key !in catalogue ==> r == []
    ensures forall s :: s in r ==> s in SongsFor(catalogue, key)
    ensures GenreFilterActive(genre) ==> forall s :: s in r ==> GenreMatches(genre, s)
    ensures forall i, j :: 0 <= i < j < |r| ==> r[i].popularity >= r[j].popularity
    ensures multiset(r) <= multiset(Matching(catalogue, key, genre))
    ensures |r| <= |Matching(catalogue, key, genre)| && r == Sort(Matching(catalogue, key, genre), MorePopular)[..|r|]
    ensures 0 <= limit ==> |r| == if limit <= |Matching(catalogue, key, genre)| then limit else |Matching(catalogue, key, genre)|
    ensures limit < 0 ==> |r| == if -limit <= |Matching(catalogue, key, genre)| then |Matching(catalogue, key, genre)| + limit else 0
    ensures |Matching(catalogue, key, genre)| <= limit ==> multiset(r) == multiset(Matching(catalogue, key, genre))
  {
    var m := Matching(catalogue, key, genre);
    var sorted := Sort(m, MorePopular);
    SortedByPopularity(m);
    var r := PyTake(sorted, limit);
    assert r == sorted[..|r|];
    PrefixKeeps(sorted, r);
    PrefixSubMultiset(sorted, r);
    r
  }

  /** Only the most popular are kept: a matching song the limit cut off is
      no more popular than any song returned. */
  lemma {:induction false} CutSongsAreNoMorePopular(catalogue: map<string, seq<Song>>, key: string, genre: string, limit: int)
    ensures var r := SongsByKeyAndGenre(catalogue, key, genre, limit);
      forall m, x :: m in Matching(catalogue, key, genre) && m !in r && x in r ==> m.popularity <= x.popularity
  {
    var matching := Matching(catalogue, key, genre);
    var sorted := Sort(matching, MorePopular);
    var r := SongsByKeyAndGenre(catalogue, key, genre, limit);
    MorePopularIsStrictWeakOrder();
    SortSorted(matching, MorePopular);
    SortKeepsElements(matching, MorePopular);
    LeftOutOfPrefix(sorted, MorePopular, |r|);
  }

  /** Sorting by popularity orders the songs most popular first and keeps
      only songs of the input. */
  lemma {:induction false} SortedByPopularity(m: seq<Song>)
    ensures forall i, j :: 0 <= i < j < |Sort(m, MorePopular)| ==> Sort(m, MorePopular)[i].popularity >= Sort(m, MorePopular)[j].popularity
    ensures forall s :: s in Sort(m, MorePopular) ==> s in m
  {
    var sorted := Sort(m, MorePopular);
    MorePopularIsStrictWeakOrder();
    SortSorted(m, MorePopular);
    forall s | s in sorted
      ensures s in m
    {
      assert s in multiset(sorted);
    }
  }

  /** A prefix holds no more copies of anything than the whole. */
  lemma {:induction false} PrefixSubMultiset(whole: seq<Song>, prefix: seq<Song>)
    requires |prefix| <= |whole| && prefix == whole[..|prefix|]
    ensures multiset(prefix) <= multiset(whole)
  {
    assert whole == prefix + whole[|prefix|..];
  }

  /** A prefix keeps membership in, and the order of, the whole. */
  lemma {:induction false} PrefixKeeps(whole: seq<Song>, prefix: seq<Song>)
    requires |prefix| <= |whole| && prefix == whole[..|prefix|]
    ensures forall s :: s in prefix ==> s in whole
    ensures forall i, j :: 0 <= i < j < |prefix| ==> prefix[i] == whole[i] && prefix[j] == whole[j]
  {
  }

  /** When no genre filter applies, the code sorts the table's own list in
      place. The catalogue as it is after such a search. */
  function AfterSearch(catalogue: map<string, seq<Song>>, key: string, genre: string): (c: map<string, seq<Song>>)
    ensures c.Keys == catalogue.Keys
    ensures forall k :: k in catalogue && k != key ==> c[k] == catalogue[k]
    ensures key in catalogue ==> multiset(c[key]) == multiset(catalogue[key])
    ensures key in catalogue && GenreFilterActive(genre) ==> c[key] == catalogue[key]
    ensures key in catalogue && !GenreFilterActive(genre) ==>
      forall i, j :: 0 <= i < j < |c[key]| ==> c[key][i].popularity >= c[key][j].popularity
  {
    if key in catalogue && !GenreFilterActive(genre) then
      SortedByPopularity(catalogue[key]);
      catalogue[key := Sort(catalogue[key], MorePopular)]
    else catalogue
  }

  /** The in-place sort is invisible: every later search returns what it
      would have returned on the untouched catalogue. */
  lemma {:induction false} InPlaceSortInvisible(catalogue: map<string, seq<Song>>, key: string, genre: string, key2: string, genre2: string, limit2: int)
    ensures SongsByKeyAndGenre(AfterSearch(catalogue, key, genre), key2, genre2, limit2) == SongsByKeyAndGenre(catalogue, key2, genre2, limit2)
  {
    if key2 in catalogue && key2 == key && !GenreFilterActive(genre) {
      var s := catalogue[key];
      var after := AfterSearch(catalogue, key, genre);
      assert SongsFor(after, key2) == Sort(s, MorePopular);
      MorePopularIsStrictWeakOrder();
      if GenreFilterActive(genre2) {
        var p := (x: Song) => GenreMatches(genre2, x);
        FilterSort(s, p, MorePopular);
        SortSorted(Filter(s, p), MorePopular);
        SortOfSorted(Sort(Filter(s, p), MorePopular), MorePopular);
        assert Matching(after, key2, genre2) == Filter(Sort(s, MorePopular), p);
        assert Matching(catalogue, key2, genre2) == Filter(s, p);
      } else {
        SortSorted(s, MorePopular);
        SortOfSorted(Sort(s, MorePopular), MorePopular);
      }
    } else {
      assert SongsFor(AfterSearch(catalogue, key, genre), key2) == SongsFor(catalogue, key2);
    }
  }

  /** Every curated list is short. */
  lemma {:induction false} CuratedListsShort(key: string)
    ensures |SongsFor(CuratedSongsByKey, key)| <= 4
  {
  }

  const DefaultLimit: int := 20
  const MaxLimit: int := 50
  const KeyRequiredMessage: string := "Key is required"

  /** A field of the JSON request body: absent, JSON `null`, or given. */
  datatype Field<T> = Absent | Null | Given(value: T)

  /** A JSON number: Python sees an `int` or a `float`. */
  datatype Number = Whole(n: int) | Fractional(x: real)

  /** The JSON body of a `/search_by_key` request. */
  datatype SearchRequest = SearchRequest(key: Field<string>, genre: Field<string>, limit: Field<Number>)

  /** The reply: a 400 error, a 500 from an uncaught exception, or the
      result; a `None` genre is echoed back as JSON `null`. */
  datatype SearchResponse =
    | SearchError(error: string)
    | ServerFault
    | SearchResult(key: string, genre: Option<string>, songs: seq<Song>, total: int)

  /** `min(data.get('limit', 20), 50)`: `None` when `min` raises on a
      `null`. Python's `min` returns its first argument unless the second
      is smaller, so a fractional limit up to 50 stays fractional. */
  function EffectiveLimit(limit: Field<Number>): (n: Option<Number>)
    ensures n.None? <==> limit.Null?
    ensures limit.Absent? ==> n == Some(Whole(DefaultLimit))
    ensures n.Some? && n.value.Whole? ==> n.value.n <= MaxLimit
    ensures n.Some? && n.value.Fractional? ==> n.value.x <= MaxLimit as real && limit == Given(n.value)
    ensures limit.Given? && limit.value.Whole? && limit.value.n <= MaxLimit ==> n == Some(limit.value)
    ensures limit.Given? && limit.value.Whole? && limit.value.n > MaxLimit ==> n == Some(Whole(MaxLimit))
    ensures limit.Given? && limit.value.Fractional? && limit.value.x > MaxLimit as real ==> n == Some(Whole(MaxLimit))
    ensures limit.Given? && limit.value.Fractional? && limit.value.x <= MaxLimit as real ==> n == Some(limit.value)
  {
    match limit
    case Absent => Some(Whole(DefaultLimit))
    case Null => None
    case Given(Whole(k)) => Some(Whole(if MaxLimit < k then MaxLimit else k))
    case Given(Fractional(x)) => Some(if MaxLimit as real < x then Whole(MaxLimit) else Fractional(x))
  }

  /** The genre as the handler holds it: `'all'` when absent, `None` for a
      JSON `null`. */
  function GenreOf(genre: Field<string>): Option<string>
  {
    match genre
    case Absent => Some("all")
    case Null => None
    case Given(g) => Some(g)
  }

  /** The genre text the search sees: `None` is falsy like `""`, so both
      switch the filter off. */
  function GenreText(genre: Option<string>): (g: string)
    ensures genre.None? ==> !GenreFilterActive(g)
    ensures genre.Some? ==> g == genre.value
  {
    if genre.Some? then genre.value else ""
  }

  /** The songs the handler returns for a computed limit: a fractional limit
      makes `songs[:limit]` raise inside the search's `try`, which answers
      with no songs. */
  function SongsForLimit(catalogue: map<string, seq<Song>>, key: string, genre: Option<string>, limit: Number): seq<Song>
  {
    match limit
    case Whole(n) => SongsByKeyAndGenre(catalogue, key, GenreText(genre), n)
    case Fractional(_) => []
  }

  /** `handle_search_by_key` over a song table. The limit is computed
      before the key is checked, so a `null` limit fails even without a
      key. */
  function Search(catalogue: map<string, seq<Song>>, req: SearchRequest): (resp: SearchResponse)
    ensures resp.ServerFault? <==> req.limit.Null?
    ensures resp.SearchError? <==> !req.limit.Null? && (req.key.Absent? || req.key.Null? || req.key == Given(""))
    ensures resp.SearchError? ==> resp.error == KeyRequiredMessage
    ensures resp.SearchResult? ==> req.key.Given? && resp.key == req.key.value && resp.total == |resp.songs|
    ensures resp.SearchResult? ==> resp.genre == GenreOf(req.genre)
    ensures resp.SearchResult? ==> forall s :: s in resp.songs ==> s in SongsFor(catalogue, resp.key)
    ensures resp.SearchResult? ==> multiset(resp.songs) <= multiset(Matching(catalogue, resp.key, GenreText(resp.genre)))
    ensures resp.SearchResult? && GenreFilterActive(GenreText(resp.genre)) ==>
      forall s :: s in resp.songs ==> GenreMatches(GenreText(resp.genre), s)
    ensures resp.SearchResult? ==> forall i, j :: 0 <= i < j < |resp.songs| ==> resp.songs[i].popularity >= resp.songs[j].popularity
    ensures resp.SearchResult? && req.limit.Given? && req.limit.value.Whole? && 0 <= req.limit.value.n ==>
      |resp.songs| == Min(Min(req.limit.value.n, MaxLimit), |Matching(catalogue, resp.key, GenreText(resp.genre))|)
    ensures resp.SearchResult? && req.limit.Given? && req.limit.value.Fractional? && req.limit.value.x <= MaxLimit as real ==> resp.songs == []
  {
    var limit := EffectiveLimit(req.limit);
    if limit.None? then ServerFault
    else if !req.key.Given? || req.key.value == "" then SearchError(KeyRequiredMessage)
    else
      var key := req.key.value;
      var genre := GenreOf(req.genre);
      var songs := SongsForLimit(catalogue, key, genre, limit.value);
      SearchResult(key, genre, songs, |songs|)
  }

  /** The songs of a result are exactly the search of `SongsByKeyAndGenre`
      with the capped limit: 20 when none is sent, `min(limit, 50)` for a
      whole limit, and 50 for a fractional limit above 50. */
  lemma {:induction false} SearchUsesCappedLimit(catalogue: map<string, seq<Song>>, req: SearchRequest)
    ensures var resp := Search(catalogue, req);
      resp.SearchResult? && req.limit.Absent? ==>
        resp.songs == SongsByKeyAndGenre(catalogue, resp.key, GenreText(resp.genre), DefaultLimit)
    ensures var resp := Search(catalogue, req);
      resp.SearchResult? && req.limit.Given? && req.limit.value.Whole? ==>
        resp.songs == SongsByKeyAndGenre(catalogue, resp.key, GenreText(resp.genre), Min(req.limit.value.n, MaxLimit))
    ensures var resp := Search(catalogue, req);
      resp.SearchResult? && req.limit.Given? && req.limit.value.Fractional? && req.limit.value.x > MaxLimit as real ==>
        resp.songs == SongsByKeyAndGenre(catalogue, resp.key, GenreText(resp.genre), MaxLimit)
  {
    var limit := EffectiveLimit(req.limit);
    if limit.Some? && req.key.Given? && req.key.value != "" {
      assert Search(catalogue, req).songs == SongsForLimit(catalogue, req.key.value, GenreOf(req.genre), limit.value);
    }
  }

  /** The handler as the server runs it, over the curated table. */
  function SearchByKey(req: SearchRequest): SearchResponse
  {
    Search(CuratedSongsByKey, req)
  }

  function Min(a: int, b: int): int
  {
    if a < b then a else b
  }

  /** With the default limit every matching song is returned: no curated
      list is longer than the default of 20. */
  lemma {:induction false} DefaultLimitReturnsEveryMatch(key: string, genre: Field<string>)
    requires key != ""
    ensures var resp := SearchByKey(SearchRequest(Given(key), genre, Absent));
      resp.SearchResult? &&
      multiset(resp.songs) == multiset(Matching(CuratedSongsByKey, key, GenreText(GenreOf(genre))))
  {
    CuratedListsShort(key);
    var m := Matching(CuratedSongsByKey, key, GenreText(GenreOf(genre)));
    assert |m| <= |SongsFor(CuratedSongsByKey, key)| by {
      if GenreFilterActive(GenreText(GenreOf(genre))) {
        assert m == Filter(SongsFor(CuratedSongsByKey, key), s => GenreMatches(GenreText(GenreOf(genre)), s));
      }
    }
  }

  /** Sorting four songs whose popularities rank them second, first,
      third and fourth. */
  lemma {:induction false} SortFourSongs(a: Song, b: Song, c: Song, d: Song)
    requires b.popularity > a.popularity > c.popularity > d.popularity
    ensures Sort([a, b, c, d], MorePopular) == [b, a, c, d]
  {
    SortFront(a, b, c, d);
    SortThreeSorted(b, c, d);
    InsertSecond(a, b, c, d);
  }

  /** Sorting four songs inserts the first into the sorted other three. */
  lemma {:induction false} SortFront(a: Song, b: Song, c: Song, d: Song)
    ensures Sort([a, b, c, d], MorePopular) == Insert(a, Sort([b, c, d], MorePopular), MorePopular)
  {
    assert [a, b, c, d][1..] == [b, c, d];
  }

  /** Three songs already in descending popularity sort to themselves. */
  lemma {:induction false} SortThreeSorted(b: Song, c: Song, d: Song)
    requires b.popularity > c.popularity > d.popularity
    ensures Sort([b, c, d], MorePopular) == [b, c, d]
  {
    assert [b, c, d][1..] == [c, d];
    assert [c, d][1..] == [d];
    assert [d][1..] == [];
    assert Sort([d], MorePopular) == [d];
    assert Sort([c, d], MorePopular) == [c, d];
  }

  /** A song less popular than the head of a descending list but more
      popular than the rest is inserted second. */
  lemma {:induction false} InsertSecond(a: Song, b: Song, c: Song, d: Song)
    requires b.popularity > a.popularity > c.popularity
    ensures Insert(a, [b, c, d], MorePopular) == [b, a, c, d]
  {
    assert [b, c, d][1..] == [c, d];
  }

  /** The curated `A Minor` list, in source order. */
  lemma AMinorCurated()
    ensures "A Minor" in CuratedSongsByKey
    ensures CuratedSongsByKey["A Minor"] == [
      Song("Sicko Mode", "Travis Scott", 155, "Hip-Hop", 95),
      Song("God's Plan", "Drake", 77, "Hip-Hop", 98),
      Song("HUMBLE.", "Kendrick Lamar", 150, "Hip-Hop", 92),
      Song("Bad Guy", "Billie Eilish", 135, "Pop", 90)]
  {
  }

  /** With the genre `all` the search sees the key's whole list. */
  lemma {:induction false} MatchingAll(catalogue: map<string, seq<Song>>, key: string)
    ensures Matching(catalogue, key, "all") == SongsFor(catalogue, key)
  {
    assert !GenreFilterActive("all");
  }

  /** A limit of two keeps the two most popular of four songs with
      distinct popularities, most popular first. */
  lemma {:induction false} TopTwoOfFour(catalogue: map<string, seq<Song>>, key: string, a: Song, b: Song, c: Song, d: Song)
    requires key in catalogue && catalogue[key] == [a, b, c, d]
    requires b.popularity > a.popularity > c.popularity > d.popularity
    ensures SongsByKeyAndGenre(catalogue, key, "all", 2) == [b, a]
  {
    MatchingAll(catalogue, key);
    var m := Matching(catalogue, key, "all");
    SortFourSongs(a, b, c, d);
    var r := SongsByKeyAndGenre(catalogue, key, "all", 2);
    assert |r| == 2;
    assert r == Sort(m, MorePopular)[..2];
  }

  /** A search for `A Minor` limited to two songs returns the two most
      popular ones, most popular first: `God's Plan`, then `Sicko Mode`. */
  lemma {:induction false} TopTwoInAMinor()
    ensures SongsByKeyAndGenre(CuratedSongsByKey, "A Minor", "all", 2) ==
      [Song("God's Plan", "Drake", 77, "Hip-Hop", 98), Song("Sicko Mode", "Travis Scott", 155, "Hip-Hop", 95)]
  {
    AMinorCurated();
    var list := CuratedSongsByKey["A Minor"];
    TopTwoOfFour(CuratedSongsByKey, "A Minor", list[0], list[1], list[2], list[3]);
  }

  /** A search limited to two songs on a key with four songs of distinct
      popularity answers with the two most popular. */
  lemma {:induction false} SearchTopTwoOfFour(catalogue: map<string, seq<Song>>, key: string, a: Song, b: Song, c: Song, d: Song)
    requires key != "" && key in catalogue && catalogue[key] == [a, b, c, d]
    requires b.popularity > a.popularity > c.popularity > d.popularity
    ensures var resp := Search(catalogue, SearchRequest(Given(key), Absent, Given(Whole(2))));
      resp.SearchResult? && resp.total == 2 && resp.songs == [b, a]
  {
    var req := SearchRequest(Given(key), Absent, Given(Whole(2)));
    var resp := Search(catalogue, req);
    assert resp.SearchResult? && resp.key == key && resp.genre == Some("all");
    SearchUsesCappedLimit(catalogue, req);
    assert resp.songs == SongsByKeyAndGenre(catalogue, key, "all", 2);
    TopTwoOfFour(catalogue, key, a, b, c, d);
  }

  /** A search for `A Minor` limited to two songs answers with the two
      most popular curated ones, `God's Plan` before `Sicko Mode`. */
  lemma {:induction false} SearchTopTwoInAMinor()
    ensures var resp := SearchByKey(SearchRequest(Given("A Minor"), Absent, Given(Whole(2))));
      resp.SearchResult? && resp.total == 2 && resp.songs == [
        Song("God's Plan", "Drake", 77, "Hip-Hop", 98),
        Song("Sicko Mode", "Travis Scott", 155, "Hip-Hop", 95)]
  {
    AMinorCurated();
    var list := CuratedSongsByKey["A Minor"];
    SearchTopTwoOfFour(CuratedSongsByKey, "A Minor", list[0], list[1], list[2], list[3]);
  }
}

=== FILE: sorting.dfy ===
/** A stable insertion sort over a "comes strictly before" relation.

    Both languages of the application sort stably: Python's `list.sort`
    (also with `reverse=True`, which keeps equal elements in their original
    order) and JavaScript's `Array.prototype.sort`. `Sort` inserts each
    element in front of every element it does not strictly precede, which
    gives exactly that behaviour. */
module Sorting {
  import opened Common

  /** `lt(a, b)` means `a` must come strictly before `b`. Sorting is only
      meaningful for a strict weak order: asymmetric, with a transitive
      complement. */
  ghost predicate StrictWeakOrder<T(!new)>(lt: (T, T) -> bool)
  {
    && (forall a, b :: lt(a, b) ==> !lt(b, a))
    && (forall a, b, c :: !lt(a, b) && !lt(b, c) ==> !lt(a, c))
  }

  /** No element is strictly before one that precedes it. */
  ghost predicate Sorted<T>(s: seq<T>, lt: (T, T) -> bool)
  {
    forall i, j :: 0 <= i < j < |s| ==> !lt(s[j], s[i])
  }

  /** Elements the order cannot tell apart appear in ascending `ord`, and
      no two share an `ord`. */
  ghost predicate TiesByOrd<T>(s: seq<T>, lt: (T, T) -> bool, ord: T -> int)
  {
    forall i, j :: 0 <= i < j < |s| ==> ord(s[i]) != ord(s[j]) && (!lt(s[i], s[j]) ==> ord(s[i]) < ord(s[j]))
  }

  /** Inserts `x` before the first element it is not strictly after. */
  function Insert<T>(x: T, s: seq<T>, lt: (T, T) -> bool): (r: seq<T>)
    ensures |r| == |s| + 1
    ensures multiset(r) == multiset(s) + multiset{x}
    decreases |s|
  {
    if |s| == 0 || !lt(s[0], x) then [x] + s
    else
      var tail := Insert(x, s[1..], lt);
      assert s == [s[0]] + s[1..];
      [s[0]] + tail
  }

  /** Stable sort: inserts the head into the sorted tail. */
  function Sort<T>(s: seq<T>, lt: (T, T) -> bool): (r: seq<T>)
    ensures |r| == |s|
    ensures multiset(r) == multiset(s)
    decreases |s|
  {
    if |s| == 0 then []
    else
      var tail := Sort(s[1..], lt);
      assert s == [s[0]] + s[1..];
      Insert(s[0], tail, lt)
  }

  lemma {:induction false} InsertSorted<T(!new)>(x: T, s: seq<T>, lt: (T, T) -> bool)
    requires StrictWeakOrder(lt)
    requires Sorted(s, lt)
    ensures Sorted(Insert(x, s, lt), lt)
    decreases |s|
  {
    if |s| == 0 || !lt(s[0], x) {
      forall j | 0 <= j < |s|
        ensures !lt(s[j], x)
      {
        if j > 0 {
          assert !lt(s[j], s[0]);
        }
      }
    } else {
      var tail := Insert(x, s[1..], lt);
      InsertSorted(x, s[1..], lt);
      forall j | 0 <= j < |tail|
        ensures !lt(tail[j], s[0])
      {
        assert tail[j] in multiset(s[1..]) + multiset{x};
        if tail[j] != x {
          assert tail[j] in s[1..];
          var k :| 0 <= k < |s[1..]| && s[1..][k] == tail[j];
          assert s[k + 1] == tail[j];
        }
      }
      assert Insert(x, s, lt) == [s[0]] + tail;
    }
  }

  /** The result of `Sort` is sorted. */
  lemma {:induction false} SortSorted<T(!new)>(s: seq<T>, lt: (T, T) -> bool)
    requires StrictWeakOrder(lt)
    ensures Sorted(Sort(s, lt), lt)
    decreases |s|
  {
    if |s| > 0 {
      SortSorted(s[1..], lt);
      InsertSorted(s[0], Sort(s[1..], lt), lt);
    }
  }

  lemma {:induction false} InsertTies<T(!new)>(x: T, s: seq<T>, lt: (T, T) -> bool, ord: T -> int)
    requires StrictWeakOrder(lt)
    requires Sorted(s, lt)
    requires TiesByOrd(s, lt, ord)
    requires forall y :: y in s ==> ord(x) < ord(y)
    ensures TiesByOrd(Insert(x, s, lt), lt, ord)
    decreases |s|
  {
    if |s| == 0 || !lt(s[0], x) {
      assert Insert(x, s, lt) == [x] + s;
      forall j | 0 <= j < |s|
        ensures ord(x) < ord(s[j])
      {
        assert s[j] in s;
      }
    } else {
      var tail := Insert(x, s[1..], lt);
      forall y | y in s[1..]
        ensures ord(x) < ord(y)
      {
        assert y in s;
      }
      InsertTies(x, s[1..], lt, ord);
      forall j | 0 <= j < |tail|
        ensures ord(s[0]) != ord(tail[j]) && (!lt(s[0], tail[j]) ==> ord(s[0]) < ord(tail[j]))
      {
        assert tail[j] in multiset(s[1..]) + multiset{x};
        if tail[j] == x {
          assert s[0] in s;
          assert lt(s[0], tail[j]);
        } else {
          assert tail[j] in s[1..];
          var k :| 0 <= k < |s[1..]| && s[1..][k] == tail[j];
          assert s[k + 1] == tail[j];
        }
      }
      assert Insert(x, s, lt) == [s[0]] + tail;
    }
  }

  /** Stability: when the input is in strictly ascending `ord`, elements the
      order cannot tell apart keep that order in the result. */
  lemma {:induction false} SortStable<T(!new)>(s: seq<T>, lt: (T, T) -> bool, ord: T -> int)
    requires StrictWeakOrder(lt)
    requires forall i, j :: 0 <= i < j < |s| ==> ord(s[i]) < ord(s[j])
    ensures TiesByOrd(Sort(s, lt), lt, ord)
    decreases |s|
  {
    if |s| > 0 {
      var tail := Sort(s[1..], lt);
      SortStable(s[1..], lt, ord);
      SortSorted(s[1..], lt);
      forall y | y in tail
        ensures ord(s[0]) < ord(y)
      {
        assert y in multiset(s[1..]);
        var k :| 0 <= k < |s[1..]| && s[1..][k] == y;
        assert s[k + 1] == y;
      }
      InsertTies(s[0], tail, lt, ord);
    }
  }

  /** Sorting an already sorted sequence changes nothing. */
  lemma {:induction false} SortOfSorted<T>(s: seq<T>, lt: (T, T) -> bool)
    requires Sorted(s, lt)
    ensures Sort(s, lt) == s
    decreases |s|
  {
    if |s| > 0 {
      assert Sorted(s[1..], lt) by {
        forall i, j | 0 <= i < j < |s[1..]|
          ensures !lt(s[1..][j], s[1..][i])
        {
          assert s[1..][j] == s[j + 1] && s[1..][i] == s[i + 1];
        }
      }
      SortOfSorted(s[1..], lt);
      assert s == [s[0]] + s[1..];
    }
  }

  /** Filtering after an insertion is inserting into the filtered
      sequence, or nothing when the new element is filtered out. */
  lemma {:induction false} FilterInsert<T(!new)>(x: T, t: seq<T>, p: T -> bool, lt: (T, T) -> bool)
    requires StrictWeakOrder(lt)
    requires Sorted(t, lt)
    ensures Filter(Insert(x, t, lt), p) == if p(x) then Insert(x, Filter(t, p), lt) else Filter(t, p)
    decreases |t|
  {
    if |t| == 0 {
      assert Insert(x, t, lt) == [x];
      assert [x][1..] == [];
    } else if !lt(t[0], x) {
      assert Insert(x, t, lt) == [x] + t;
      assert ([x] + t)[1..] == t;
      var ft := Filter(t, p);
      if |ft| > 0 {
        assert ft[0] in t;
        var k :| 0 <= k < |t| && t[k] == ft[0];
        assert k == 0 || !lt(t[k], t[0]);
      }
    } else {
      var tail := t[1..];
      assert Sorted(tail, lt) by {
        forall i, j | 0 <= i < j < |tail|
          ensures !lt(tail[j], tail[i])
        {
          assert tail[j] == t[j + 1] && tail[i] == t[i + 1];
        }
      }
      FilterInsert(x, tail, p, lt);
      assert Insert(x, t, lt) == [t[0]] + Insert(x, tail, lt);
      assert ([t[0]] + Insert(x, tail, lt))[1..] == Insert(x, tail, lt);
      if p(t[0]) {
        assert Filter(t, p) == [t[0]] + Filter(tail, p);
        assert ([t[0]] + Filter(tail, p))[1..] == Filter(tail, p);
      }
    }
  }

  /** Filtering commutes with the stable sort: filtering the sorted
      sequence gives the sorted filtered sequence. */
  lemma {:induction false} FilterSort<T(!new)>(s: seq<T>, p: T -> bool, lt: (T, T) -> bool)
    requires StrictWeakOrder(lt)
    ensures Filter(Sort(s, lt), p) == Sort(Filter(s, p), lt)
    decreases |s|
  {
    if |s| > 0 {
      var rest := Sort(s[1..], lt);
      SortSorted(s[1..], lt);
      FilterInsert(s[0], rest, p, lt);
      FilterSort(s[1..], p, lt);
      if p(s[0]) {
        var f := Filter(s, p);
        assert f == [s[0]] + Filter(s[1..], p);
        assert f[1..] == Filter(s[1..], p);
      }
    }
  }

  /** A prefix of a sorted sequence is sorted, and nothing after it comes
      strictly before anything in it. */
  lemma {:induction false} SortedPrefix<T>(s: seq<T>, lt: (T, T) -> bool, n: nat)
    requires Sorted(s, lt) && n <= |s|
    ensures Sorted(s[..n], lt)
    ensures forall i, j :: 0 <= i < n <= j < |s| ==> !lt(s[j], s[i])
  {
    assert forall i :: 0 <= i < n ==> s[..n][i] == s[i];
  }

  /** Sorting keeps exactly the elements it was given. */
  lemma {:induction false} SortKeepsElements<T>(s: seq<T>, lt: (T, T) -> bool)
    ensures forall x :: x in Sort(s, lt) <==> x in s
  {
    forall x
      ensures x in Sort(s, lt) <==> x in s
    {
      assert x in Sort(s, lt) <==> x in multiset(Sort(s, lt));
    }
  }

  /** An element of a sorted sequence left out of a prefix does not come
      strictly before anything kept in the prefix. */
  lemma {:induction false} LeftOutOfPrefix<T>(s: seq<T>, lt: (T, T) -> bool, n: nat)
    requires Sorted(s, lt) && n <= |s|
    ensures forall m, x :: m in s && m !in s[..n] && x in s[..n] ==> !lt(m, x)
  {
    forall m, x | m in s && m !in s[..n] && x in s[..n]
      ensures !lt(m, x)
    {
      var k :| 0 <= k < |s| && s[k] == m;
      var i :| 0 <= i < n && s[..n][i] == x;
      assert forall t :: 0 <= t < n ==> s[..n][t] == s[t];
      assert k >= n;
    }
  }

  /** The first `n` elements of a sort: sorted, drawn from the input, and
      the whole input again when `n` covers it. */
  lemma {:induction false} SortPrefix<T(!new)>(s: seq<T>, lt: (T, T) -> bool, n: nat)
    requires StrictWeakOrder(lt) && n <= |s|
    ensures Sorted(Sort(s, lt)[..n], lt)
    ensures forall x :: x in Sort(s, lt)[..n] ==> x in s
    ensures n == |s| ==> multiset(Sort(s, lt)[..n]) == multiset(s)
  {
    var sorted := Sort(s, lt);
    SortSorted(s, lt);
    SortKeepsElements(s, lt);
    SortedPrefix(sorted, lt, n);
    assert forall x :: x in sorted[..n] ==> x in sorted;
    assert n == |s| ==> sorted[..n] == sorted;
  }
}

=== FILE: strings.dfy ===
/** The JavaScript and Python string primitives the application relies on,
    stated over `seq<char>`. */
module Strings {

  /** Position of the last `c` in `s`, or -1 when `s` has none
      (JavaScript `lastIndexOf`). */
  function LastIndexOf(s: string, c: char): (r: int)
    ensures -1 <= r < |s|
    ensures 0 <= r ==> s[r] == c
    ensures forall i :: r < i < |s| ==> s[i] != c
  {
    if |s| == 0 then -1
    else if s[|s| - 1] == c then |s| - 1
    else LastIndexOf(s[..|s| - 1], c)
  }

  /** The last occurrence is pinned down by an occurrence with none after
      it. */
  lemma {:induction false} LastIndexOfAt(s: string, c: char, k: int)
    requires 0 <= k < |s| && s[k] == c
    requires forall i :: k < i < |s| ==> s[i] != c
    ensures LastIndexOf(s, c) == k
  {
  }

  /** An index clamped into `[0, n]`, as JavaScript `substring` does. */
  function Clamp(i: int, n: nat): (r: nat)
    ensures r <= n
    ensures 0 <= i <= n ==> r == i
    ensures i < 0 ==> r == 0
    ensures n < i ==> r == n
  {
    if i < 0 then 0 else if i > n then n else i
  }

  /** JavaScript `s.substring(start, end)`: both bounds are clamped into
      `[0, |s|]` and swapped when given in reverse. */
  function Substring(s: string, start: int, end: int): (r: string)
    ensures |r| <= |s|
    ensures 0 <= start <= end <= |s| ==> r == s[start..end]
    ensures end <= 0 && 0 <= start ==> r == s[..Clamp(start, |s|)]
  {
    var a := Clamp(start, |s|);
    var b := Clamp(end, |s|);
    if a <= b then s[a..b] else s[b..a]
  }

  /** JavaScript `s.substring(start)`: the suffix from the clamped `start`. */
  function SubstringFrom(s: string, start: int): (r: string)
    ensures |r| <= |s|
    ensures 0 <= start <= |s| ==> r == s[start..] && |r| == |s| - start
    ensures |s| <= start ==> r == ""
  {
    Substring(s, start, |s|)
  }

  /** ASCII lower-casing of one character. */
  function LowerChar(c: char): char
  {
    if 'A' <= c <= 'Z' then (c as int + 32) as char else c
  }

  /** ASCII lower-casing of a string, character by character. */
  function Lower(s: string): (r: string)
    ensures |r| == |s|
    ensures forall i :: 0 <= i < |s| ==> r[i] == LowerChar(s[i])
  {
    seq(|s|, i requires 0 <= i < |s| => LowerChar(s[i]))
  }

  /** `s.endsWith(t)` */
  predicate EndsWith(s: string, t: string)
  {
    |t| <= |s| && s[|s| - |t|..] == t
  }

  /** `s.startsWith(t)` */
  predicate StartsWith(s: string, t: string)
  {
    |t| <= |s| && s[..|t|] == t
  }

  /** `t` occurs in `s` starting at position `i`. */
  predicate OccursAt(s: string, t: string, i: int)
  {
    0 <= i && i + |t| <= |s| && s[i..i + |t|] == t
  }

  /** Python `t in s` on strings: `t` occurs in `s` as a contiguous block. */
  function Contains(s: string, t: string): (b: bool)
    ensures b <==> exists i :: OccursAt(s, t, i)
    decreases |s|
  {
    if |t| > |s| then
      assert forall i :: !OccursAt(s, t, i);
      false
    else if s[..|t|] == t then
      assert OccursAt(s, t, 0);
      true
    else
      var b' := Contains(s[1..], t);
      assert b' ==> exists i :: OccursAt(s, t, i) by {
        if b' {
          var i :| OccursAt(s[1..], t, i);
          assert s[1..][i..i + |t|] == s[i + 1..i + 1 + |t|];
          assert OccursAt(s, t, i + 1);
        }
      }
      assert (exists i :: OccursAt(s, t, i)) ==> b' by {
        if exists i :: OccursAt(s, t, i) {
          var i :| OccursAt(s, t, i);
          assert i != 0;
          assert s[1..][i - 1..i - 1 + |t|] == s[i..i + |t|];
          assert OccursAt(s[1..], t, i - 1);
        }
      }
      b'
  }

  /** `s.replace(/x/g, y)` for single characters `x` and `y`. */
  function ReplaceAll(s: string, x: char, y: char): (r: string)
    ensures |r| == |s|
    ensures forall i :: 0 <= i < |s| ==> r[i] == (if s[i] == x then y else s[i])
  {
    seq(|s|, i requires 0 <= i < |s| => if s[i] == x then y else s[i])
  }

  /** JavaScript `s.split(sep)` for a one-character separator: the pieces
      between separators, with an empty piece on each side of a separator
      at an end and between two adjacent separators. */
  function Split(s: string, sep: char): (parts: seq<string>)
    ensures |parts| >= 1
    ensures forall i :: 0 <= i < |parts| ==> sep !in parts[i]
    decreases |s|
  {
    if |s| == 0 then [""]
    else
      var rest := Split(s[1..], sep);
      if s[0] == sep then [""] + rest
      else [[s[0]] + rest[0]] + rest[1..]
  }

  /** Python `sep.join(parts)` / JavaScript `parts.join(sep)`. */
  function Join(parts: seq<string>, sep: string): string
    decreases |parts|
  {
    if |parts| == 0 then ""
    else if |parts| == 1 then parts[0]
    else parts[0] + sep + Join(parts[1..], sep)
  }

  /** Splitting a string and joining the pieces back with the separator
      gives the original string. */
  lemma {:induction false} JoinSplit(s: string, sep: char)
    ensures Join(Split(s, sep), [sep]) == s
    decreases |s|
  {
    if |s| > 0 {
      var rest := Split(s[1..], sep);
      JoinSplit(s[1..], sep);
      if s[0] != sep {
        if |rest| == 1 {
          assert Split(s, sep) == [[s[0]] + rest[0]];
        } else {
          assert rest == [rest[0]] + rest[1..];
          assert Join(rest, [sep]) == rest[0] + [sep] + Join(rest[1..], [sep]);
          assert Split(s, sep) == [[s[0]] + rest[0]] + rest[1..];
        }
      }
      assert s == [s[0]] + s[1..];
    }
  }

  /** A string without the separator is a single piece. */
  lemma {:induction false} SplitWithoutSeparator(s: string, sep: char)
    requires sep !in s
    ensures Split(s, sep) == [s]
    decreases |s|
  {
    if |s| > 0 {
      SplitWithoutSeparator(s[1..], sep);
      assert s == [s[0]] + s[1..];
    }
  }

  /** Two separator-free strings joined by one separator split back into
      exactly those two strings. */
  lemma {:induction false} SplitPair(a: string, b: string, sep: char)
    requires sep !in a && sep !in b
    ensures Split(a + [sep] + b, sep) == [a, b]
    decreases |a|
  {
    if |a| == 0 {
      assert a + [sep] + b == [sep] + b;
      assert ([sep] + b)[1..] == b;
      SplitWithoutSeparator(b, sep);
    } else {
      SplitPair(a[1..], b, sep);
      assert (a + [sep] + b)[1..] == a[1..] + [sep] + b;
      assert a == [a[0]] + a[1..];
    }
  }

  /** A separator-free first piece followed by the separator splits off as
      the first piece. */
  lemma {:induction false} SplitAfterPiece(a: string, b: string, sep: char)
    requires sep !in a
    ensures Split(a + [sep] + b, sep) == [a] + Split(b, sep)
    decreases |a|
  {
    if |a| == 0 {
      assert a + [sep] + b == [sep] + b;
      assert ([sep] + b)[1..] == b;
    } else {
      SplitAfterPiece(a[1..], b, sep);
      assert (a + [sep] + b)[1..] == a[1..] + [sep] + b;
      assert a == [a[0]] + a[1..];
    }
  }

  /** Joining separator-free pieces and splitting the result gives the
      pieces back. */
  lemma {:induction false} SplitJoin(parts: seq<string>, sep: char)
    requires |parts| >= 1
    requires forall i :: 0 <= i < |parts| ==> sep !in parts[i]
    ensures Split(Join(parts, [sep]), sep) == parts
    decreases |parts|
  {
    if |parts| == 1 {
      SplitWithoutSeparator(parts[0], sep);
    } else {
      SplitJoin(parts[1..], sep);
      SplitAfterPiece(parts[0], Join(parts[1..], [sep]), sep);
      assert parts == [parts[0]] + parts[1..];
    }
  }
}

=== FILE: tempo.dfy ===
/** Tempo post-processing of `detect_tempo` (KeyFinder-Server/server.py:289-307):
    the raw estimate from `librosa.feature.tempo` is folded by a single
    halving or doubling into the usual range and rounded to a whole BPM. */
module Tempo {
  import opened Common
  import opened Rounding

  /** BPM reported when tempo estimation raises (server.py:305-307). */
  const DefaultBpm: int := 120

  /** One octave step: above 200 halve, below 60 double, otherwise keep
      (server.py:299-302). */
  function FoldTempo(t: real): (r: real)
    ensures t > 200.0 ==> r * 2.0 == t
    ensures t < 60.0 ==> r == t * 2.0
    ensures 60.0 <= t <= 200.0 ==> r == t
  {
    if t > 200.0 then t / 2.0
    else if t < 60.0 then t * 2.0
    else t
  }

  /** Raw tempi between 30 and 400 BPM land in the 60..200 band after one
      fold; outside that input range a single step does not suffice. */
  lemma FoldTempoBand(t: real)
    ensures 30.0 <= t <= 400.0 ==> 60.0 <= FoldTempo(t) <= 200.0
    ensures t > 400.0 ==> FoldTempo(t) > 200.0
    ensures 0.0 <= t < 30.0 ==> FoldTempo(t) < 60.0
  {
  }

  /** `detect_tempo`: `Err` stands for an exception inside librosa. */
  function DetectTempo(raw: Result<real>): (bpm: int)
    ensures raw.Err? ==> bpm == DefaultBpm
    ensures raw.Ok? ==> Gap(bpm, FoldTempo(raw.value)) <= 0.5
    ensures raw.Ok? ==> forall n: int :: Gap(bpm, FoldTempo(raw.value)) <= Gap(n, FoldTempo(raw.value))
    ensures raw.Ok? && Gap(bpm, FoldTempo(raw.value)) == 0.5 ==> bpm % 2 == 0
    ensures raw.Ok? && 30.0 <= raw.value <= 400.0 ==> 60 <= bpm <= 200
  {
    match raw
    case Err(_) => DefaultBpm
    case Ok(t) =>
      FoldTempoBand(t);
      RoundHalfEvenIsNearest(FoldTempo(t));
      RoundHalfEven(FoldTempo(t))
  }
}
